=== FILE: README.md ===
# near_queue in Dafny

near_queue moves files from remote sources into an object store and then
hands them to a user-supplied processing function. Two sources exist: files
on an SFTP server, and attachments of mails in an IMAP mailbox. Progress is
tracked in a durable work queue, so that the whole pipeline can be re-run on
a schedule without repeating work.

The queue store holds named queues. Each queue holds entries, at most one
per key. An entry carries:

- a key and an optional sort key;
- a completion flag and a completion time;
- the time it was added.

A processor class runs three stages in order:

1. Discovery. It lists the source and gets-or-creates an upload-queue entry
   per item. For SFTP the item is a remote path; for IMAP it is the locator
   `mailbox;UID=<uid>/;UIDVALIDITY=<validity>` of one message.
2. Transfer. It scans the incomplete upload entries in queue order. For each
   entry it:
   - fetches the item;
   - compresses it (`.gz`) and/or encrypts it (`.gpg`);
   - uploads it under a derived key;
   - gets-or-creates an incomplete process-queue entry for every key;
   - marks the upload entry complete.
3. Processing. It scans the incomplete process entries. For each entry it
   downloads the object, runs gpg on it (whether or not the processor
   encrypts), gives the result to the processing function, and marks the
   entry complete.

Each stage stops at the first exception. Writes made before that point stay
in the store. A stage that fails ends the run.

The model is made of immutable values and pure functions:

- The store is a value: a set of queue names, a map from `(queue, key)` to
  an entry, and an abstract clock.
- Every database call returns a new store.
- Every call to a server, gpg, the local file system or the processing
  function is an oracle. An oracle is a function-typed field of an
  environment value, which is a parameter of the stage.
- A stage returns the store, the fault that stopped it (if any), and how
  many items it finished.

Modules, in dependency order:

- `Wrappers`: `Option` and `Result`.
- `Strings`: Python's `str.split`, `rstrip`, `int()` on digit strings, and
  the code-point string order.
- `Paths`: `os.path.join` and `os.path.basename`.
- `QueueStore`: the two models and their get-or-create, complete and
  re-open writes.
- `QueueOrder`: the model ordering `(sort_key, time_added, key)` and the
  ordered scan of incomplete entries.
- `FileTransforms`: `gzip_file`, `gpg_encrypt` and `gpg_decrypt` on a set of
  local file names.
- `S3Naming`: the suffix chain, the SFTP and IMAP keys, and the write path.
- `ImapLocator`: the locator format and `parse_imap_url`.
- `Pipeline`: faults, stage results and the discovery loop.
- `Transfer`: the transfer loop shared by both sources, parameterised by
  the per-item upload.
- `SftpStages`, `ImapStages`, `ProcessStage`: the stages.
- `Workflow`: `retrieve_and_process_files` of both processor classes.

Where a deduplicating work queue might be expected to behave otherwise, the
model follows the code:

- A failure does not skip to the next entry. It stops the stage, and every
  later stage, for this run.
- `time_completed` is not set just once. Each `mark_as_complete` stamps it
  again (`QueueStore.MarkCompleteOverwritesStamp`). Re-opening a process
  entry keeps its old stamp.
- A duplicate enqueue is not always absorbed. A process-queue get-or-create
  with a sort key fails with an integrity error when the key exists with a
  different sort key.
- `parse_imap_url` does not reject a locator with no `UID` or `UIDVALIDITY`
  segment (`ImapLocator.ParseAcceptsMissingFields`). The failure comes later,
  at the dictionary lookup.
- The read path always runs gpg, even for a processor that does not
  encrypt, and never decompresses: a compressed object reaches the processing
  function still gzipped, and an unencrypted one under its temporary name less
  four characters (`ProcessStage.ProcessedNameOfSftpKey`,
  `Workflow.SftpProcessedName`).

## Model

| member | source | states |
|---|---|---|
| Strings.Split | near_queue/processors.py:345 | `split` gives at least one piece, and no piece contains the separator |
| Strings.SplitJoin | near_queue/processors.py:345 | splitting the `;`-join of separator-free parts gives back the parts |
| Strings.JoinSplit | near_queue/processors.py:345 | joining the pieces of `split` with the separator gives back the string |
| Strings.SplitAtFirst | near_queue/processors.py:345 | splitting `a + c + b`, where `a` has no `c`, gives `a` followed by the pieces of `b` |
| Strings.SplitNoSeparator | near_queue/processors.py:345 | a string without the separator splits into itself alone |
| Strings.RStrip | near_queue/processors.py:346 | `rstrip` gives a prefix that does not end in the character, and only that character was removed |
| Strings.RStripNoTrailing | near_queue/processors.py:346 | `rstrip('/')` leaves a string not ending in `/` unchanged |
| Strings.NatToDecimal | near_queue/processors.py:259-261 | the decimal text of a natural is a non-empty string of digits |
| Strings.ParseNat | near_queue/processors.py:351 | `int()` fails (a ValueError) exactly on the empty string or one holding a non-digit |
| Strings.ParseNatLeadingZero | near_queue/processors.py:351 | `int()` ignores a leading zero: `int("0" + s)` is `int(s)`, and `int("0")` is 0 |
| Strings.DecimalRoundTrip | near_queue/processors.py:351 | `int()` of the decimal text of a natural gives the natural back |
| Strings.StrLessIrreflexive | near_queue/models.py:40 | no string orders before itself |
| Strings.StrLessTransitive | near_queue/models.py:40 | the string order is transitive |
| Strings.StrLessConnected | near_queue/models.py:40 | of two different strings, one orders before the other |
| Strings.StrLessAsymmetric | near_queue/models.py:40 | two strings never order before each other |
| Paths.PathJoin | near_queue/processors.py:150 | an absolute second part replaces the first; otherwise the result starts with the first part and ends with the second |
| Paths.Basename | near_queue/processors.py:150 | the basename has no `/`, is a suffix of the path, and is the whole path or follows a `/` |
| Paths.BasenameAppend | near_queue/processors.py:180 | appending a `/`-free suffix extends the basename by that suffix |
| Paths.BasenameOfJoin | near_queue/processors.py:150 | the basename of a directory joined with a `/`-free name is that name |
| QueueStore.GetOrCreateQueue | near_queue/models.py:5-12 | it fails exactly for a new name longer than 64; on success the queue set gains the name and nothing else changes |
| QueueStore.NewEntry | near_queue/models.py:23-28 | a new entry is incomplete, has no completion time, carries its sort key, and is added now |
| QueueStore.GetOrCreateEntry | near_queue/processors.py:109-110 | it fails exactly for a new key longer than 256; it creates exactly when the key is absent; an existing entry is returned with the store unchanged; other entries are kept |
| QueueStore.GetOrCreateEntryWithSortKey | near_queue/processors.py:131-133 | an existing key succeeds only with an equal sort key, otherwise an integrity error; a new key needs key and sort key within 256; the entry carries the sort key |
| QueueStore.MarkComplete | near_queue/models.py:33-36 | the entry becomes complete, stamped with the current time; its other fields and every other entry are kept; the clock advances |
| QueueStore.ForceIncomplete | near_queue/processors.py:134-135 | the entry becomes incomplete and keeps its completion time; every other entry is kept |
| QueueStore.QueueIdempotent | near_queue/models.py:11-12 | creating a queue a second time changes nothing |
| QueueStore.EnqueueIdempotent | near_queue/models.py:38-39 | a second get-or-create of the same key finds the first one's entry and changes nothing |
| QueueStore.MarkCompleteOverwritesStamp | near_queue/models.py:33-36 | completing an entry twice leaves a strictly later completion time |
| QueueOrder.SortKeyLessIrreflexive | near_queue/models.py:40 | no sort key orders before itself (a missing one sorts first) |
| QueueOrder.SortKeyLessAsymmetric | near_queue/models.py:40 | two sort keys never order before each other |
| QueueOrder.SortKeyLessTransitive | near_queue/models.py:40 | the sort-key order is transitive |
| QueueOrder.SortKeyLessConnected | near_queue/models.py:40 | of two different sort keys, one orders first |
| QueueOrder.RankLessIrreflexive | near_queue/models.py:40 | no `(sort_key, time_added, key)` rank orders before itself |
| QueueOrder.RankLessAsymmetric | near_queue/models.py:40 | two ranks never order before each other |
| QueueOrder.RankLessTransitive | near_queue/models.py:40 | the rank order is transitive |
| QueueOrder.RankLessConnected | near_queue/models.py:40 | of two different ranks, one orders first |
| QueueOrder.BeforeIsStrictTotalOrder | near_queue/models.py:40 | the model ordering is a strict total order on the keys of one queue |
| QueueOrder.FirstExists | near_queue/models.py:40 | a non-empty set of keys of a queue has a first key in the model ordering |
| QueueOrder.FirstUnique | near_queue/models.py:40 | that first key is unique |
| QueueOrder.IncompleteKeys | near_queue/processors.py:122 | the filter holds exactly the keys of the queue's incomplete entries |
| QueueOrder.SortedKeys | near_queue/models.py:40 | the listing holds exactly the given keys, each once, in the model ordering |
| QueueOrder.ListIncomplete | near_queue/processors.py:122 | the scan lists exactly the queue's incomplete keys, each once, in the model ordering |
| FileTransforms.DropLast4 | near_queue/utils.py:27 | `s[:-4]`: four characters fewer, a prefix of `s`, and empty for a shorter `s` |
| FileTransforms.GzipFile | near_queue/utils.py:5-10 | it fails exactly when the input file is missing; it writes `f + ".gz"`, returns that name, and keeps the input |
| FileTransforms.GpgEncrypt | near_queue/utils.py:13-23 | it returns `f + ".gpg"` whether or not gpg wrote it; the file set gains that name exactly when gpg produced it |
| FileTransforms.GpgDecrypt | near_queue/utils.py:26-39 | it names the output `f[:-4]` whatever the last four characters are; it fails exactly when asked to delete a missing input; the resulting file set is given exactly |
| FileTransforms.DecryptNameInvertsEncrypt | near_queue/utils.py:13-39 | decrypting the name encryption returned gives back the encrypted name |
| FileTransforms.DecryptNameOfCompressed | near_queue/utils.py:26-39 | a `.gz.gpg` name decrypts to the `.gz` name |
| FileTransforms.DecryptNameOfShortName | near_queue/utils.py:27 | a name shorter than four characters decrypts to the empty name |
| S3Naming.StripInvertsAdd | near_queue/processors.py:150-156 | stripping `.gpg`, then `.gz`, recovers the name the suffixes were added to |
| S3Naming.SuffixEndings | near_queue/processors.py:151-156 | the name ends in `.gpg` when encrypting, in `.gz.gpg` when doing both, in `.gz` when only compressing |
| S3Naming.BasenameOfSuffixed | near_queue/processors.py:180 | the basename of a suffixed name is the suffixed basename |
| S3Naming.SftpS3Key | near_queue/processors.py:150-156 | the key starts with the directory joined with the remote basename, and is longer by 3 when compressing and by 4 when encrypting |
| S3Naming.ImapS3Key | near_queue/processors.py:315-326 | the key starts with the directory joined with `<iso date>_<name>`, and is longer by 3 when compressing and by 4 when encrypting |
| S3Naming.SftpKeyShape | near_queue/processors.py:150-156 | an SFTP key strips back to the remote basename under the directory, its basename is the suffixed remote basename, and it carries the suffixes of the configuration |
| S3Naming.ImapKeyShape | near_queue/processors.py:315-323 | an IMAP key strips back to `<iso date>_<name>` under the directory and ends in `.gpg` iff encrypting, `.gz.gpg` when also compressing, `.gz` when only compressing |
| S3Naming.WriteTransforms | near_queue/processors.py:151-156 | as intended: it succeeds exactly when the file exists; the result has the key's suffixes; it is present unless gpg produced nothing; the input is gone after any transform; no other file appears |
| S3Naming.WriteTransformsAsWritten | near_queue/processors.py:151-156 | as written: it succeeds exactly when neither compressing nor encrypting, because both calls pass an argument their helper does not take |
| S3Naming.AsWrittenTransformsFail | near_queue/processors.py:153 | for an existing file with any transform on, the as-written path fails where the intended one succeeds |
| ImapLocator.Format | near_queue/processors.py:259-261 | the locator starts with the mailbox followed by `;`, and ends with the UIDVALIDITY decimal |
| ImapLocator.Parse | near_queue/processors.py:341-352 | a parse result always has a `mailbox` entry, and while it is text it is the first `;`-segment with trailing `/` stripped |
| ImapLocator.StripAll | near_queue/processors.py:346 | each part has its trailing `/` stripped; the length is kept |
| ImapLocator.ParseSegment | near_queue/processors.py:350-351 | a segment parses exactly when it splits at `=` into two pieces and the second is a decimal; the key is the first piece and the number is `int()` of the second |
| ImapLocator.ParseSegments | near_queue/processors.py:349-351 | the loop succeeds exactly when every segment is well formed; it keeps the starting keys and the mailbox text, unless a segment overwrote it |
| ImapLocator.ParseSegmentsContents | near_queue/processors.py:347-351 | after a successful loop the dictionary's keys are the starting keys and the segment keys; a key no segment names keeps its starting value; a key a segment names holds `int()` of the last segment naming it |
| ImapLocator.ToMessageRef | near_queue/processors.py:304-306 | the lookups succeed exactly when `mailbox` is present and `UID` and `UIDVALIDITY` are present as integers |
| ImapLocator.ParseFailsIff | near_queue/processors.py:345-352 | parsing fails exactly when some stripped segment after the first is malformed |
| ImapLocator.ParseAcceptsMissingFields | near_queue/processors.py:341-352 | every locator without `;` parses to just its mailbox, trailing `/` stripped; the lookup then fails for the missing `UID` |
| ImapLocator.DecimalHasNoSeparators | near_queue/processors.py:259-261 | the decimal text of a number holds no `;`, `=` or `/` |
| ImapLocator.SegmentRoundTrip | near_queue/processors.py:350-351 | a `KEY=<digits>` segment, with or without a trailing `/`, strips and parses to its key and number |
| ImapLocator.LocatorRoundTrip | near_queue/processors.py:259-261 | for a mailbox without `;` and without a trailing `/`, a formatted locator parses back to exactly the mailbox, UID and UIDVALIDITY |
| ImapLocator.StripFormat | near_queue/processors.py:345-346 | a formatted locator splits and strips into the mailbox, `UID=<uid>` and `UIDVALIDITY=<v>` |
| ImapLocator.ParseFormattedSegments | near_queue/processors.py:347-351 | the two formatted segments add exactly the UID and UIDVALIDITY numbers to the mailbox dictionary |
| ImapLocator.SplitFormat | near_queue/processors.py:345 | a formatted locator splits at `;` into the mailbox, `UID=<uid>/` and `UIDVALIDITY=<v>` |
| ImapLocator.FormatShape | near_queue/processors.py:259-261 | a formatted locator is the mailbox, `;`, the UID part, `;`, the UIDVALIDITY part |
| Pipeline.EnqueueAll | near_queue/processors.py:108-114 | it finishes exactly when every key was handled; existing entries are unchanged; each new entry is for a handled key, incomplete, never completed, with no sort key |
| Pipeline.EnqueueAllPreservesValid | near_queue/processors.py:108-114 | the discovery loop keeps the store invariant |
| Pipeline.EnqueueAllKeys | near_queue/processors.py:108-110 | a finished discovery loop adds exactly the entries for the keys |
| Pipeline.EnqueueAllPresent | near_queue/processors.py:108-114 | enqueueing keys that are all present changes nothing |
| Transfer.EnqueueDownstream | near_queue/processors.py:289-295 | the inner loop finishes exactly when every key was handled; it only adds entries |
| Transfer.DownstreamStep | near_queue/processors.py:290-295 | one key adds only its process entry, re-opened with its completion time kept, and completes the upload entry; nothing else changes |
| Transfer.TransferEntries | near_queue/processors.py:280-295 | the outer loop finishes exactly when every upload entry was handled; it only adds entries |
| Transfer.UploadStep | near_queue/processors.py:282-295 | an upload entry finishes only when its upload succeeded; it only adds entries |
| Transfer.DownstreamKeepsIncomplete | near_queue/processors.py:289-295 | the inner loop never completes a process entry |
| Transfer.DownstreamKeepsComplete | near_queue/processors.py:289-295 | the inner loop never re-opens an upload entry |
| Transfer.DownstreamFrame | near_queue/processors.py:289-295 | the inner loop changes only the source entry and process entries |
| Transfer.DownstreamKeepsTime | near_queue/processors.py:289-295 | the inner loop keeps every process entry's completion time |
| Transfer.DownstreamHandled | near_queue/processors.py:289-295 | every handled key has an incomplete process entry; the source is complete once a key was handled, and untouched if none was |
| Transfer.UploadStepFacts | near_queue/processors.py:282-295 | one upload entry keeps entries present, process entries incomplete with their times, upload entries complete, and other entries unchanged |
| Transfer.TransferKeepsIncomplete | near_queue/processors.py:280-295 | a transfer batch never completes a process entry |
| Transfer.TransferKeepsComplete | near_queue/processors.py:280-295 | a transfer batch never re-opens an upload entry |
| Transfer.TransferKeepsTime | near_queue/processors.py:280-295 | a transfer batch keeps every process entry's completion time |
| Transfer.TransferFrame | near_queue/processors.py:280-295 | entries of other queues, and upload entries neither handled nor failed on, are unchanged |
| Transfer.DownstreamPreservesValid | near_queue/processors.py:289-295 | the inner loop keeps the store invariant |
| Transfer.TransferPreservesValid | near_queue/processors.py:280-295 | a transfer batch keeps the store invariant |
| Transfer.DeliveredKept | near_queue/processors.py:280-295 | a delivered entry stays delivered for the rest of the batch |
| Transfer.TransferHandled | near_queue/processors.py:280-295 | every handled upload entry was delivered |
| Transfer.TransferKeepsSilent | near_queue/processors.py:289-295 | with distinct keys, an upload entry whose upload failed or wrote no key is unchanged |
| Transfer.TransferStage | near_queue/processors.py:277-279 | a transfer stage only adds entries, and when it finishes both queues exist |
| Transfer.StageIsTransfer | near_queue/processors.py:277-280 | once both queues exist, the stage is the batch over the ordered scan of incomplete upload entries |
| Transfer.StageDelivers | near_queue/processors.py:280-295 | every upload entry the stage handled was delivered |
| Transfer.StageCompletesAll | near_queue/processors.py:277-295 | a finished stage delivered every incomplete upload entry, kept complete ones complete, and kept incomplete process entries incomplete |
| Transfer.StageLeavesRest | near_queue/processors.py:277-295 | later entries, the entry whose upload failed, entries with no keys, and other queues are left unchanged |
| Transfer.StagePreservesValid | near_queue/processors.py:277-295 | a transfer stage keeps the store invariant |
| SftpStages.MatchingPaths | near_queue/processors.py:105-107 | the candidates are exactly the joined listed names that the pattern matches |
| SftpStages.EnqueueSftpFiles | near_queue/processors.py:99-115 | a finished discovery had a listing and the queue exists |
| SftpStages.EnqueueSftpAddsOnly | near_queue/processors.py:108-114 | discovery changes no existing entry; every new entry is an incomplete, never-completed entry of its queue |
| SftpStages.EnqueueSftpFinds | near_queue/processors.py:105-110 | after discovery the queue holds a path exactly when it held it or the path matched; no other queue gains an entry |
| SftpStages.EnqueueSftpPreservesValid | near_queue/processors.py:99-115 | discovery keeps the store invariant |
| SftpStages.RediscoverSftpIsNoOp | near_queue/processors.py:99-115 | discovering again over the same listing changes nothing |
| SftpStages.PutSftpFile | near_queue/processors.py:139-171 | it succeeds exactly when the fetch, gpg output, upload and requested remote removal all succeed; it returns the derived key |
| SftpStages.PutSftpKeys | near_queue/processors.py:126-130 | the upload of one file writes exactly its derived key |
| SftpStages.SendSftpFilesIntoS3 | near_queue/processors.py:118-136 | the stage only adds entries, and when it finishes both queues exist |
| SftpStages.SftpDelivered | near_queue/processors.py:126-136 | a delivered file was uploaded, its entry is complete, and its key has an incomplete process entry |
| SftpStages.SendSftpDelivers | near_queue/processors.py:124-136 | every handled file was uploaded, is complete, and its key has an incomplete process entry |
| SftpStages.SendSftpCompletesAll | near_queue/processors.py:118-136 | a finished stage completed every upload entry and queued the key of each one that was incomplete |
| SftpStages.SendSftpLeavesRest | near_queue/processors.py:124-136 | entries after the stopping one, and a failed upload's entry, are unchanged |
| ImapStages.Locators | near_queue/processors.py:258-261 | one formatted locator per UID, in UID order |
| ImapStages.EnqueueImapEmails | near_queue/processors.py:252-268 | a finished discovery read UIDVALIDITY and UIDs and the queue exists |
| ImapStages.EnqueueImapAddsOnly | near_queue/processors.py:262-267 | discovery changes no existing entry; every new entry is an incomplete, never-completed entry of its queue |
| ImapStages.EnqueueImapFinds | near_queue/processors.py:256-263 | after discovery the queue holds a key exactly when it held it or the key is a listed message's locator |
| ImapStages.LocatorsParse | near_queue/processors.py:259-261 | every enqueued locator parses back to its own message |
| ImapStages.RediscoverImapIsNoOp | near_queue/processors.py:252-268 | discovering again against an unchanged mailbox changes nothing |
| ImapStages.EnqueueImapPreservesValid | near_queue/processors.py:252-268 | discovery keeps the store invariant |
| ImapStages.UploadAttachments | near_queue/processors.py:314-330 | it succeeds exactly when every attachment's gpg output exists and its upload succeeds; it returns one key per attachment, in order |
| ImapStages.PutImapAttachments | near_queue/processors.py:298-338 | it succeeds exactly when parse, lookups, download, the object-store connection (made even for a message with no attachments), every upload and any configured archive move succeed; it returns one key per attachment |
| ImapStages.SendImapAttachmentsIntoS3 | near_queue/processors.py:271-295 | the stage only adds entries, and when it finishes both queues exist |
| ImapStages.ImapDelivered | near_queue/processors.py:289-295 | a delivered message had its attachments uploaded, each key has an incomplete process entry, and the message is complete if it had one |
| ImapStages.SendImapDelivers | near_queue/processors.py:280-295 | every handled message had its attachments uploaded and queued, and is complete if it had any |
| ImapStages.SendImapKeepsEmptyMessage | near_queue/processors.py:289-295 | a message without matching attachments is left exactly as it was |
| ImapStages.SendImapLeavesRest | near_queue/processors.py:280-295 | entries after the stopping one, and a failed message's entry, are unchanged |
| ProcessStage.DownloadPath | near_queue/processors.py:180-181 | the temporary file name ends in the key's basename |
| ProcessStage.LocalFile | near_queue/processors.py:191 | when decrypting, the file is the download minus four characters and exists exactly when gpg produced it; otherwise it is the download itself |
| ProcessStage.ProcessOne | near_queue/processors.py:178-195 | as intended: it succeeds exactly when the object goes through, then only its entry changes, to complete; a failure is a download, callback or missing-file fault |
| ProcessStage.ProcessOneAsWritten | near_queue/processors.py:174-191 | as written: it succeeds exactly when the object goes through with decryption, whatever the decrypt flag |
| ProcessStage.AsWrittenDecryptsPlainObjects | near_queue/processors.py:191 | an unencrypted object always fails as written; with the flag honoured it goes through when it downloads and the callback accepts it |
| ProcessStage.ProcessedNameOfSftpKey | near_queue/processors.py:180-192 | an encrypted SFTP object reaches the callback under the remote basename, still with `.gz` when compressed |
| ProcessStage.ProcessEntries | near_queue/processors.py:178-195 | the loop finishes exactly when every entry was handled; it neither adds nor removes entries |
| ProcessStage.ProcessHandled | near_queue/processors.py:178-195 | every handled object went through and its entry is complete |
| ProcessStage.ProcessStopsOn | near_queue/processors.py:178-195 | an early stop is on an object that does not go through |
| ProcessStage.ProcessKeepsComplete | near_queue/processors.py:178-195 | the loop never re-opens an entry |
| ProcessStage.ProcessFrame | near_queue/processors.py:178-195 | entries not among the handled keys are unchanged |
| ProcessStage.ProcessPreservesValid | near_queue/processors.py:178-195 | the loop keeps the store invariant |
| ProcessStage.ProcessS3Files | near_queue/processors.py:174-195 | as written: whatever its decrypt flag, it neither adds nor removes entries, and when it finishes the queue exists, every entry is complete, and every formerly pending object went through gpg, which produced a file for it, and through the callback |
| ProcessStage.AsWrittenStageFailsOnPlainObject | near_queue/processors.py:191 | as written, a stage told not to decrypt stops on any pending object gpg makes nothing of; the stage that honours the flag completes it when it finishes |
| ProcessStage.ProcessQueue | near_queue/processors.py:174-195 | the stage with the gpg step chosen by the flag neither adds nor removes entries, and when it finishes the queue exists |
| ProcessStage.ProcessStageCompletesAll | near_queue/processors.py:174-195 | for either gpg setting, a finished stage left every entry of the queue complete, and every formerly incomplete object went through |
| ProcessStage.ProcessStageDoesIncomplete | near_queue/processors.py:176-195 | a finished stage processed and completed every formerly incomplete entry |
| ProcessStage.ProcessCovers | near_queue/processors.py:178-195 | a finished loop processed and completed every key it was given |
| ProcessStage.ProcessStageKeepsComplete | near_queue/processors.py:174-195 | the stage never re-opens an entry |
| ProcessStage.ProcessStageFrame | near_queue/processors.py:174-195 | the stage never touches another queue |
| ProcessStage.ProcessStageStops | near_queue/processors.py:176-195 | an early stop is on an object that does not go through, and it and every later entry are unchanged |
| ProcessStage.ProcessStagePreservesValid | near_queue/processors.py:174-195 | the stage keeps the store invariant |
| Workflow.SftpTransferConfig | near_queue/processors.py:84-96 | a gpg recipient is passed exactly when encrypting, and it is the configured one |
| Workflow.ImapTransferConfig | near_queue/processors.py:235-249 | a gpg recipient is passed exactly when encrypting, and it is the configured one |
| Workflow.RetrieveAndProcessSftp | near_queue/processors.py:67-74 | the run stops at the first failing stage and succeeds exactly when all three stages finished |
| Workflow.RetrieveAndProcessImap | near_queue/processors.py:219-226 | the run stops at the first failing stage and succeeds exactly when all three stages finished |
| Workflow.SftpTransferReady | near_queue/processors.py:121-123 | a finished transfer had both queues created |
| Workflow.SftpRunCompletesAll | near_queue/processors.py:67-74 | after a finished run, every matched remote file has a complete upload entry; each one still pending went through gpg, which produced a file for it, and the callback under its key, and that key's entry is complete |
| Workflow.ImapRunSteps | near_queue/processors.py:219-226 | a finished run finished each stage in turn |
| Workflow.ImapRunDeliversAll | near_queue/processors.py:219-226 | after a finished run, each pending message had every attachment uploaded, run through gpg and processed under a complete key, and is complete if it had one |
| Workflow.ImapTransferThenProcess | near_queue/processors.py:225-226 | for either gpg setting, a finished transfer then a finished processing stage processed every key of every pending message |
| Workflow.ImapEntryThrough | near_queue/processors.py:289-295 | one delivered message, after a finished processing stage, has all its keys complete and processed |
| Workflow.SftpProcessedName | near_queue/processors.py:37-42 | an encrypting run hands the callback the temporary name ending in the remote basename, with `.gz` when compressing; a run that does not encrypt hands it that name less its last four characters |

## Left out

- Transports: the SFTP, IMAP and S3 connections, gpg and gzip contents,
  `mkstemp` and `os.remove`. Each is an oracle in an environment value. The
  IMAP upload's S3 connection is its own oracle (`ImapEnv.s3Connect`), tried
  once per message after the download. In the SFTP upload the S3 connection
  comes right before the single put, so its failure is a failure of the put
  oracle. The model tracks only which local file names exist, not file
  contents.
- Oracles are deterministic functions of their argument. So a repeated call
  on the same key gives the same outcome, which the rediscovery lemmas rely
  on. A real server may answer differently on a second call.
- Regular expressions: the SFTP name pattern is an oracle
  (`SftpEnv.matches`). The IMAP pattern is applied inside the download
  oracle.
- Dates: the clock is an abstract counter advanced by each time-stamping
  write. The ISO date of an attachment is an input string.
- Logging and `log_before_and_after` are not modelled; they have no effect
  on the store.
- Column widths are enforced strictly (64 for queue names, 256 for keys and
  sort keys). SQLite itself does not enforce `max_length`.
- String order is code-point lexicographic. The database collation may
  differ. A missing sort key sorts before every present one.
- Django writes back every field of the scanned snapshot object on `save()`.
  The model writes only the changed fields to the current entry. The two
  differ only when the upload queue and the process queue are the same
  queue; the lemmas require them to differ.
- Concurrency between workflow instances is not modelled. Each run is
  sequential.
- Strings.ParseNat: accepts only non-empty ASCII digit strings. Python's
  `int()` also accepts signs and surrounding whitespace.
- FileTransforms.GzipFile: a call on a missing input leaves the file set
  unchanged. Python opens `f.gz` for writing first, so an empty `f.gz`
  remains; no stage reads it, because the failure ends the stage.
- ImapLocator.ParseSegment: a value with a sign or whitespace, which `int()`
  accepts, is rejected here as `NotInteger`.
- SendSftpLeavesRest: when the stage stops on the process-queue
  get-or-create, the upload entry it stopped on is also unchanged in the
  code. The lemma states this only for a failed upload.
- The processing function is an oracle (`ProcessEnv.callback`). So is the
  `processor` of the base class, which raises.

## Findings

| source | as written | input that shows it | evidently intended | confidence | as-written member | corrected member |
|---|---|---|---|---|---|---|
| near_queue/processors.py:153 | `gzip_file(tempfile, delete_original=True)`; `gzip_file` takes only `fname`, so the call raises `TypeError` | any SFTP transfer with `compress=True` | compress the temporary file into `.gz` and remove the input | high; not executed | S3Naming.WriteTransformsAsWritten, S3Naming.AsWrittenTransformsFail | S3Naming.WriteTransforms |
| near_queue/processors.py:156 | `gpg_encrypt(tempfile, gpg_recipient, delete_original=True)`; `gpg_encrypt` takes no `delete_original` | any SFTP transfer with a gpg recipient | encrypt into `.gpg` and remove the input | high; not executed | S3Naming.WriteTransformsAsWritten, S3Naming.AsWrittenTransformsFail | S3Naming.WriteTransforms |
| near_queue/processors.py:320-326 | the same two calls on each IMAP attachment | any IMAP transfer with compression or a gpg recipient | as for SFTP | high; not executed | S3Naming.WriteTransformsAsWritten, S3Naming.AsWrittenTransformsFail | S3Naming.WriteTransforms |
| near_queue/processors.py:191 | `process_s3_files` ignores its `decrypt` argument and always runs `gpg_decrypt` | a processor with `ENCRYPT_FILE = False`: gpg writes nothing for a plain object, the download is deleted, and the processed file is missing | decrypt only when `decrypt` is set | medium; not executed | ProcessStage.ProcessS3Files, ProcessStage.AsWrittenStageFailsOnPlainObject, ProcessStage.ProcessOneAsWritten, ProcessStage.AsWrittenDecryptsPlainObjects | ProcessStage.ProcessQueue, ProcessStage.ProcessOne |

The transfer stages use the corrected write path, since the one as written
cannot run with compression or encryption at all. The processing stage and
the workflow follow the code as written: `ProcessS3Files` always runs gpg.
The corrected stage `ProcessQueue` carries the same stage lemmas for either
value of the flag.

=== FILE: imap.dfy ===
/** The IMAP side of the pipeline: discovery of a mailbox's messages into the
    upload queue as locators, and the transfer of each message's matching
    attachments into the object store with the downstream enqueue into the
    process queue. Every mail-server and object-store call is an input. */
module ImapStages {
  import opened Wrappers
  import opened QueueStore
  import opened QueueOrder
  import opened FileTransforms
  import opened S3Naming
  import opened ImapLocator
  import opened Pipeline
  import opened Transfer

  /** One downloaded attachment: the message date in ISO form, the
      attachment's own file name, and the local file it was saved to. */
  datatype Attachment = Attachment(isoDate: string, remoteName: string, localName: string)

  /** The outcomes of the calls the IMAP stages make: the mailbox's
      UIDVALIDITY and its UIDs, downloading a message's attachments that match
      the file-name pattern, connecting to the object store and opening its
      bucket (once per message, after the download), whether gpg wrote its
      output for an attachment, the upload to a key, and moving a message to
      the archive mailbox. */
  datatype ImapEnv = ImapEnv(
    uidValidity: string -> Option<nat>,
    listUids: string -> Option<seq<nat>>,
    download: MessageRef -> Option<seq<Attachment>>,
    s3Connect: MessageRef -> bool,
    gpgProduced: Attachment -> bool,
    put: string -> bool,
    move: MessageRef -> bool)

  datatype ImapConfig = ImapConfig(s3Directory: string, archiveMailbox: Option<string>, compress: bool, recipient: Option<string>)

  /** The locators of a mailbox's messages, in UID order. */
  function Locators(mailbox: string, uids: seq<nat>, uidValidity: nat): (r: seq<string>)
    ensures |r| == |uids|
    ensures forall i :: 0 <= i < |uids| ==> r[i] == Format(mailbox, uids[i], uidValidity)
  {
    if |uids| == 0 then [] else [Format(mailbox, uids[0], uidValidity)] + Locators(mailbox, uids[1..], uidValidity)
  }

  /** `enqueue_imap_emails`: get-or-create the queue, read the mailbox's
      UIDVALIDITY and UIDs, and get-or-create an entry per message locator. */
  function EnqueueImapEmails(s: Store, queueName: string, mailbox: string, env: ImapEnv): (r: StageResult)
    ensures r.fault.None? ==> env.uidValidity(mailbox).Some? && env.listUids(mailbox).Some? && queueName in r.store.queues
  {
    match GetOrCreateQueue(s, queueName)
    case Failure(e) => StageResult(s, Some(Db(e)), 0)
    case Success(s1) =>
      match env.uidValidity(mailbox)
      case None => StageResult(s1, Some(Transport("imap.uid_validity", mailbox)), 0)
      case Some(v) =>
        match env.listUids(mailbox)
        case None => StageResult(s1, Some(Transport("imap.list_uids", mailbox)), 0)
        case Some(uids) => EnqueueAll(s1, queueName, Locators(mailbox, uids, v))
  }

  /** Discovery never changes an existing entry, and every entry it adds is
      an incomplete, never-completed entry of its queue. */
  lemma EnqueueImapAddsOnly(s: Store, queueName: string, mailbox: string, env: ImapEnv)
    ensures var r := EnqueueImapEmails(s, queueName, mailbox, env);
            && (forall qk :: qk in s.entries ==> qk in r.store.entries && r.store.entries[qk] == s.entries[qk])
            && (forall qk :: qk in r.store.entries && qk !in s.entries ==>
                  qk.0 == queueName && !r.store.entries[qk].isComplete && r.store.entries[qk].timeCompleted.None?)
  {
  }

  /** After a discovery that ran to the end, the queue holds an entry for a
      key exactly when it held one before or the key is the locator of a
      listed UID; no other queue gains an entry. */
  lemma EnqueueImapFinds(s: Store, queueName: string, mailbox: string, env: ImapEnv)
    requires EnqueueImapEmails(s, queueName, mailbox, env).fault.None?
    ensures var r := EnqueueImapEmails(s, queueName, mailbox, env);
            var locs := Locators(mailbox, env.listUids(mailbox).value, env.uidValidity(mailbox).value);
            && (forall k :: (queueName, k) in r.store.entries <==> (queueName, k) in s.entries || k in locs)
            && (forall qk :: qk in r.store.entries && qk.0 != queueName ==> qk in s.entries)
  {
    var s1 := GetOrCreateQueue(s, queueName).value;
    EnqueueAllKeys(s1, queueName, Locators(mailbox, env.listUids(mailbox).value, env.uidValidity(mailbox).value));
  }

  /** Every locator discovery enqueues parses back to its own message, for a
      mailbox name without `;` that does not end in `/`. */
  lemma LocatorsParse(mailbox: string, uids: seq<nat>, uidValidity: nat)
    requires ';' !in mailbox
    requires |mailbox| == 0 || mailbox[|mailbox| - 1] != '/'
    ensures var locs := Locators(mailbox, uids, uidValidity);
            forall i :: 0 <= i < |locs| ==>
              && Parse(locs[i]).Success?
              && ToMessageRef(Parse(locs[i]).value) == Success(MessageRef(Text(mailbox), uids[i], uidValidity))
  {
    forall i | 0 <= i < |uids| {
      LocatorRoundTrip(mailbox, uids[i], uidValidity);
    }
  }

  /** Discovering again against an unchanged mailbox changes nothing. */
  lemma RediscoverImapIsNoOp(s: Store, queueName: string, mailbox: string, env: ImapEnv)
    requires EnqueueImapEmails(s, queueName, mailbox, env).fault.None?
    ensures var once := EnqueueImapEmails(s, queueName, mailbox, env).store;
            var twice := EnqueueImapEmails(once, queueName, mailbox, env);
            twice.fault.None? && twice.store == once
  {
    var once := EnqueueImapEmails(s, queueName, mailbox, env).store;
    var s1 := GetOrCreateQueue(s, queueName).value;
    var locs := Locators(mailbox, env.listUids(mailbox).value, env.uidValidity(mailbox).value);
    assert queueName in EnqueueAll(s1, queueName, locs).store.queues;
    assert GetOrCreateQueue(once, queueName) == Success(once);
    EnqueueAllPresent(once, queueName, locs);
  }

  /** Discovery keeps the store's invariant, whatever its outcome. */
  lemma EnqueueImapPreservesValid(s: Store, queueName: string, mailbox: string, env: ImapEnv)
    requires Valid(s)
    ensures Valid(EnqueueImapEmails(s, queueName, mailbox, env).store)
  {
    if GetOrCreateQueue(s, queueName).Success? && env.uidValidity(mailbox).Some? && env.listUids(mailbox).Some? {
      var s1 := GetOrCreateQueue(s, queueName).value;
      EnqueueAllPreservesValid(s1, queueName, Locators(mailbox, env.listUids(mailbox).value, env.uidValidity(mailbox).value));
    }
  }

  /** The key one attachment is uploaded to. */
  function AttachmentKey(a: Attachment, cfg: ImapConfig): string {
    ImapS3Key(cfg.s3Directory, a.isoDate, a.remoteName, cfg.compress, cfg.recipient)
  }

  /** One attachment goes through: its local file survives the write path
      and the upload to its key succeeds. */
  predicate AttachmentGoesThrough(a: Attachment, cfg: ImapConfig, env: ImapEnv) {
    (cfg.recipient.None? || env.gpgProduced(a)) && env.put(AttachmentKey(a, cfg))
  }

  /** Starting from the downloaded file alone, the write path leaves its
      output in place unless gpg was asked for and did not write it. */
  lemma LocalFileSurvives(f: string, compress: bool, recipient: Option<string>, gpgProduced: bool)
    ensures var local := WriteTransforms({f}, f, compress, recipient, gpgProduced).value;
            local.name in local.files <==> recipient.None? || gpgProduced
  {
    assert recipient.Some? ==> |AddSuffixes(f, compress, true)| > |f|;
  }

  /** The attachment loop of `_put_imap_attachments_on_s3`: transform each
      local file, upload it under its key, remove it; the first failure ends
      the loop. Returns the keys in attachment order. */
  function UploadAttachments(atts: seq<Attachment>, cfg: ImapConfig, env: ImapEnv): (r: Result<seq<string>, Fault>)
    ensures r.Success? <==> forall i :: 0 <= i < |atts| ==> AttachmentGoesThrough(atts[i], cfg, env)
    ensures r.Success? ==> |r.value| == |atts| && forall i :: 0 <= i < |atts| ==> r.value[i] == AttachmentKey(atts[i], cfg)
  {
    if |atts| == 0 then Success([])
    else
      var a := atts[0];
      var key := AttachmentKey(a, cfg);
      var local := WriteTransforms({a.localName}, a.localName, cfg.compress, cfg.recipient, env.gpgProduced(a)).value;
      assert local.name in local.files <==> cfg.recipient.None? || env.gpgProduced(a) by {
        LocalFileSurvives(a.localName, cfg.compress, cfg.recipient, env.gpgProduced(a));
      }
      if local.name !in local.files then Failure(File(NoSuchFile(local.name)))
      else if !env.put(key) then Failure(Transport("s3.put", key))
      else
        var rest := UploadAttachments(atts[1..], cfg, env);
        assert forall i :: 1 <= i < |atts| ==> atts[i] == atts[1..][i - 1];
        if rest.Failure? then rest else Success([key] + rest.value)
  }

  /** A non-empty archive mailbox is configured. */
  predicate Archives(cfg: ImapConfig) {
    cfg.archiveMailbox.Some? && |cfg.archiveMailbox.value| > 0
  }

  /** `_put_imap_attachments_on_s3`: parse the locator, look up the message,
      download its matching attachments, connect to the object store (even
      when there are no attachments), upload each, then move the message to
      the archive mailbox if one is configured; returns the keys. */
  function PutImapAttachments(locator: string, cfg: ImapConfig, env: ImapEnv): (r: Result<seq<string>, Fault>)
    ensures r.Success? <==>
              && Parse(locator).Success?
              && ToMessageRef(Parse(locator).value).Success?
              && var m := ToMessageRef(Parse(locator).value).value;
                 && env.download(m).Some?
                 && env.s3Connect(m)
                 && UploadAttachments(env.download(m).value, cfg, env).Success?
                 && (Archives(cfg) ==> env.move(m))
    ensures r.Success? ==>
              var atts := env.download(ToMessageRef(Parse(locator).value).value).value;
              |r.value| == |atts| && forall i :: 0 <= i < |atts| ==> r.value[i] == AttachmentKey(atts[i], cfg)
  {
    match Parse(locator)
    case Failure(e) => Failure(Locator(e))
    case Success(d) =>
      match ToMessageRef(d)
      case Failure(e) => Failure(Locator(e))
      case Success(m) =>
        match env.download(m)
        case None => Failure(Transport("imap.download_attachments", locator))
        case Some(atts) =>
          if !env.s3Connect(m) then Failure(Transport("s3.connect", locator))
          else match UploadAttachments(atts, cfg, env)
          case Failure(f) => Failure(f)
          case Success(keys) =>
            if Archives(cfg) && !env.move(m) then Failure(Transport("imap.move", locator))
            else Success(keys)
  }

  function ImapUpload(cfg: ImapConfig, env: ImapEnv): string -> Result<seq<string>, Fault> {
    locator => PutImapAttachments(locator, cfg, env)
  }

  /** `send_imap_attachments_into_s3`: get-or-create both queues, scan the
      upload queue's incomplete entries in order, upload each message's
      attachments and enqueue every key; the first failure ends the stage. */
  function SendImapAttachmentsIntoS3(s: Store, uploadQueue: string, processQueue: string, cfg: ImapConfig, env: ImapEnv)
    : (r: StageResult)
    ensures s.entries.Keys <= r.store.entries.Keys
    ensures r.fault.None? ==> uploadQueue in r.store.queues && processQueue in r.store.queues
  {
    TransferStage(s, uploadQueue, processQueue, ImapUpload(cfg, env))
  }

  /** What a delivered IMAP entry means: all of its message's attachments are
      in the object store, each key has an incomplete process-queue entry,
      and the entry is complete when there was at least one (that a message
      without attachments stays as it was is `SendImapKeepsEmptyMessage`). */
  lemma ImapDelivered(st: Store, uq: string, pq: string, locator: string, cfg: ImapConfig, env: ImapEnv)
    requires Delivered(st, uq, pq, locator, ImapUpload(cfg, env))
    ensures PutImapAttachments(locator, cfg, env).Success?
    ensures var keys := PutImapAttachments(locator, cfg, env).value;
            && (forall j :: 0 <= j < |keys| ==> (pq, keys[j]) in st.entries && !st.entries[(pq, keys[j])].isComplete)
            && (|keys| > 0 ==> IsComplete(st, uq, locator))
  {
  }

  /** Every entry the stage handled had all its attachments uploaded and
      queued for processing. */
  lemma SendImapDelivers(s: Store, uq: string, pq: string, cfg: ImapConfig, env: ImapEnv, s2: Store)
    requires uq != pq && QueuesReady(s, uq, pq, s2)
    ensures var locs := ListIncomplete(s2, uq);
            var r := SendImapAttachmentsIntoS3(s, uq, pq, cfg, env);
            forall i :: 0 <= i < r.handled ==>
              && i < |locs|
              && PutImapAttachments(locs[i], cfg, env).Success?
              && var keys := PutImapAttachments(locs[i], cfg, env).value;
                 && (forall j :: 0 <= j < |keys| ==> (pq, keys[j]) in r.store.entries && !r.store.entries[(pq, keys[j])].isComplete)
                 && (|keys| > 0 ==> IsComplete(r.store, uq, locs[i]))
  {
    var locs := ListIncomplete(s2, uq);
    var r := SendImapAttachmentsIntoS3(s, uq, pq, cfg, env);
    StageDelivers(s, uq, pq, ImapUpload(cfg, env), s2);
    forall i | 0 <= i < r.handled
      ensures PutImapAttachments(locs[i], cfg, env).Success?
      ensures var keys := PutImapAttachments(locs[i], cfg, env).value;
              && (forall j :: 0 <= j < |keys| ==> (pq, keys[j]) in r.store.entries && !r.store.entries[(pq, keys[j])].isComplete)
              && (|keys| > 0 ==> IsComplete(r.store, uq, locs[i]))
    {
      ImapDelivered(r.store, uq, pq, locs[i], cfg, env);
    }
  }

  /** A message without matching attachments is never marked complete: its
      entry is left exactly as it was, so every later run fetches it again. */
  lemma SendImapKeepsEmptyMessage(s: Store, uq: string, pq: string, cfg: ImapConfig, env: ImapEnv, s2: Store, locator: string)
    requires uq != pq && QueuesReady(s, uq, pq, s2)
    requires (uq, locator) in s.entries
    requires PutImapAttachments(locator, cfg, env) == Success([])
    ensures var r := SendImapAttachmentsIntoS3(s, uq, pq, cfg, env);
            r.store.entries[(uq, locator)] == s.entries[(uq, locator)]
  {
    StageLeavesRest(s, uq, pq, ImapUpload(cfg, env), s2);
  }

  /** Upload entries after the one the stage stopped on are left exactly as
      they were, and so is that one when its attachments could not all be
      uploaded. */
  lemma SendImapLeavesRest(s: Store, uq: string, pq: string, cfg: ImapConfig, env: ImapEnv, s2: Store)
    requires uq != pq && QueuesReady(s, uq, pq, s2)
    ensures var locs := ListIncomplete(s2, uq);
            var r := SendImapAttachmentsIntoS3(s, uq, pq, cfg, env);
            && r.handled <= |locs|
            && (forall i :: r.handled < i < |locs| ==> r.store.entries[(uq, locs[i])] == s.entries[(uq, locs[i])])
            && (r.handled < |locs| && PutImapAttachments(locs[r.handled], cfg, env).Failure? ==>
                  r.store.entries[(uq, locs[r.handled])] == s.entries[(uq, locs[r.handled])])
  {
    StageLeavesRest(s, uq, pq, ImapUpload(cfg, env), s2);
  }
}

=== FILE: locator.dfy ===
/** The IMAP message locator stored as an upload-queue key,
    `<mailbox>;UID=<uid>/;UIDVALIDITY=<validity>`, and its parser. */
module ImapLocator {
  import opened Wrappers
  import opened Strings

  /** A value of the parser's result dictionary: the mailbox text, or an
      integer parsed from a `key=value` segment. */
  datatype Field = Text(text: string) | Number(n: nat)

  /** The parser's failures: a segment that does not split into exactly two
      pieces at `=`, a value `int()` rejects, and a key the caller needs
      missing from the result (Python's ValueError and KeyError). */
  datatype LocatorError = BadSegment(part: string) | NotInteger(text: string) | MissingKey(key: string)

  /** The message coordinates the attachment download is called with. */
  datatype MessageRef = MessageRef(mailbox: Field, uid: nat, uidValidity: nat)

  /** The locator the IMAP discovery stage enqueues for one message. */
  function Format(mailbox: string, uid: nat, uidValidity: nat): (r: string)
    ensures |r| > |mailbox| && r[..|mailbox|] == mailbox && r[|mailbox|] == ';'
    ensures var d := NatToDecimal(uidValidity); |r| >= |d| && r[|r| - |d|..] == d
  {
    mailbox + ";UID=" + NatToDecimal(uid) + "/;UIDVALIDITY=" + NatToDecimal(uidValidity)
  }

  function StripAll(parts: seq<string>): (r: seq<string>)
    ensures |r| == |parts|
    ensures forall i :: 0 <= i < |parts| ==> r[i] == RStrip(parts[i], '/')
  {
    if |parts| == 0 then [] else [RStrip(parts[0], '/')] + StripAll(parts[1..])
  }

  /** A segment `k, v = part.split('=')` and `int(v)` accept. */
  predicate WellFormedSegment(part: string) {
    var kv := Split(part, '=');
    |kv| == 2 && IsDecimal(kv[1])
  }

  /** The key of a segment: the text before its first `=`. */
  function SegmentKey(part: string): string {
    Split(part, '=')[0]
  }

  /** `k, v = part.split('=')` and `(k, int(v))`. */
  function ParseSegment(part: string): (r: Result<(string, nat), LocatorError>)
    ensures r.Success? <==> WellFormedSegment(part)
    ensures r.Success? ==> r.value.0 == SegmentKey(part)
    ensures r.Success? ==> ParseNat(Split(part, '=')[1]) == Some(r.value.1)
  {
    var kv := Split(part, '=');
    if |kv| != 2 then Failure(BadSegment(part))
    else match ParseNat(kv[1])
      case None => Failure(NotInteger(kv[1]))
      case Some(n) => Success((kv[0], n))
  }

  /** The loop over the segments after the mailbox: each stores its integer
      under its key, a later segment overwriting an earlier one, and the first
      malformed segment aborts the parse. */
  function ParseSegments(parts: seq<string>, acc: map<string, Field>): (r: Result<map<string, Field>, LocatorError>)
    ensures r.Success? <==> forall i :: 0 <= i < |parts| ==> WellFormedSegment(parts[i])
    ensures r.Success? ==> acc.Keys <= r.value.Keys
    ensures r.Success? ==> forall k :: k in r.value && k in acc && r.value[k].Text? ==> r.value[k] == acc[k]
  {
    if |parts| == 0 then Success(acc)
    else match ParseSegment(parts[0])
      case Failure(e) => Failure(e)
      case Success(kn) =>
        var acc1 := acc[kn.0 := Number(kn.1)];
        var r := ParseSegments(parts[1..], acc1);
        assert r.Success? <==> forall i :: 1 <= i < |parts| ==> WellFormedSegment(parts[i]) by {
          assert forall i :: 1 <= i < |parts| ==> parts[i] == parts[1..][i - 1];
        }
        r
  }

  /** Some segment has key `k`. */
  predicate HasSegmentKey(parts: seq<string>, k: string) {
    exists i :: 0 <= i < |parts| && SegmentKey(parts[i]) == k
  }

  /** No later segment has the key of segment `i`, so its value is the one
      the dictionary keeps. */
  predicate LastWithKey(parts: seq<string>, i: nat)
    requires i < |parts|
  {
    forall j :: i < j < |parts| ==> SegmentKey(parts[j]) != SegmentKey(parts[i])
  }

  /** What a successful segment loop leaves in the dictionary: the starting
      keys and the segment keys; a key no segment names keeps its starting
      value, and each key a segment names holds the integer of the last
      segment naming it. */
  lemma {:induction false} ParseSegmentsContents(parts: seq<string>, acc: map<string, Field>)
    requires ParseSegments(parts, acc).Success?
    ensures var m := ParseSegments(parts, acc).value;
            && (forall k :: k in m <==> k in acc || HasSegmentKey(parts, k))
            && (forall k :: k in acc && !HasSegmentKey(parts, k) ==> m[k] == acc[k])
            && (forall i :: 0 <= i < |parts| && LastWithKey(parts, i) ==>
                  var kn := ParseSegment(parts[i]).value; kn.0 in m && m[kn.0] == Number(kn.1))
  {
    if |parts| > 0 {
      var kn := ParseSegment(parts[0]).value;
      var acc1 := acc[kn.0 := Number(kn.1)];
      assert ParseSegments(parts, acc) == ParseSegments(parts[1..], acc1);
      ParseSegmentsContents(parts[1..], acc1);
      HasSegmentKeyCons(parts);
      LastWithKeyCons(parts);
      var m := ParseSegments(parts, acc).value;
      forall i | 0 <= i < |parts| && LastWithKey(parts, i)
        ensures var kn := ParseSegment(parts[i]).value; kn.0 in m && m[kn.0] == Number(kn.1)
      {
        if i > 0 {
          assert parts[i] == parts[1..][i - 1];
        }
      }
    }
  }

  /** A key is a segment key of a non-empty list exactly when it is the
      first segment's key or a key of the rest. */
  lemma HasSegmentKeyCons(parts: seq<string>)
    requires |parts| > 0
    ensures forall k :: HasSegmentKey(parts, k) <==> k == SegmentKey(parts[0]) || HasSegmentKey(parts[1..], k)
  {
  }

  /** The last segment with a key is either the first segment, whose key the
      rest then lacks, or the last segment with that key in the rest. */
  lemma LastWithKeyCons(parts: seq<string>)
    requires |parts| > 0
    ensures LastWithKey(parts, 0) ==> !HasSegmentKey(parts[1..], SegmentKey(parts[0]))
    ensures forall i :: 1 <= i < |parts| && LastWithKey(parts, i) ==> LastWithKey(parts[1..], i - 1)
  {
  }

  /** `parse_imap_url`. */
  function Parse(url: string): (r: Result<map<string, Field>, LocatorError>)
    ensures r.Success? ==> "mailbox" in r.value
    ensures r.Success? && r.value["mailbox"].Text? ==> r.value["mailbox"] == Text(RStrip(Split(url, ';')[0], '/'))
  {
    var parts := StripAll(Split(url, ';'));
    ParseSegments(parts[1..], map["mailbox" := Text(parts[0])])
  }

  /** The dictionary lookups the transfer stage makes on the parse result. */
  function ToMessageRef(d: map<string, Field>): (r: Result<MessageRef, LocatorError>)
    ensures r.Success? <==> "mailbox" in d && "UID" in d && d["UID"].Number? && "UIDVALIDITY" in d && d["UIDVALIDITY"].Number?
  {
    if "mailbox" !in d then Failure(MissingKey("mailbox"))
    else if "UID" !in d || !d["UID"].Number? then Failure(MissingKey("UID"))
    else if "UIDVALIDITY" !in d || !d["UIDVALIDITY"].Number? then Failure(MissingKey("UIDVALIDITY"))
    else Success(MessageRef(d["mailbox"], d["UID"].n, d["UIDVALIDITY"].n))
  }

  /** The parse fails exactly when some segment after the first is malformed. */
  lemma ParseFailsIff(url: string)
    ensures var parts := Split(url, ';');
            Parse(url).Failure? <==> exists i :: 1 <= i < |parts| && !WellFormedSegment(RStrip(parts[i], '/'))
  {
    var parts := Split(url, ';');
    var stripped := StripAll(parts);
    assert forall i :: 1 <= i < |parts| ==> stripped[1..][i - 1] == RStrip(parts[i], '/');
    if Parse(url).Failure? {
      var j :| 0 <= j < |stripped[1..]| && !WellFormedSegment(stripped[1..][j]);
      assert !WellFormedSegment(RStrip(parts[j + 1], '/'));
    }
  }

  /** A locator with no UID or UIDVALIDITY segment still parses, to the
      mailbox alone; the failure comes only at the lookup of `UID`. */
  lemma ParseAcceptsMissingFields(mailbox: string)
    requires ';' !in mailbox
    ensures Parse(mailbox) == Success(map["mailbox" := Text(RStrip(mailbox, '/'))])
    ensures ToMessageRef(Parse(mailbox).value) == Failure(MissingKey("UID"))
  {
    SplitNoSeparator(mailbox, ';');
    var parts := StripAll([mailbox]);
    assert parts == [RStrip(mailbox, '/')];
    assert parts[1..] == [];
  }

  lemma DecimalHasNoSeparators(s: string)
    requires IsDecimal(s)
    ensures ';' !in s && '=' !in s && '/' !in s
  {
  }

  /** One `KEY=<digits>/` segment, stripped and parsed, gives back its number. */
  lemma SegmentRoundTrip(key: string, n: nat, trailer: string)
    requires '=' !in key && (trailer == "" || trailer == "/")
    ensures RStrip(key + "=" + NatToDecimal(n) + trailer, '/') == key + "=" + NatToDecimal(n)
    ensures ParseSegment(key + "=" + NatToDecimal(n)) == Success((key, n))
  {
    var d := NatToDecimal(n);
    var seg := key + "=" + d;
    assert IsDigit(d[|d| - 1]);
    assert seg[|seg| - 1] == d[|d| - 1];
    if trailer == "/" {
      assert (seg + trailer)[..|seg + trailer| - 1] == seg;
    } else {
      assert seg + trailer == seg;
    }
    RStripNoTrailing(seg, '/');
    DecimalHasNoSeparators(d);
    SplitAtFirst(key, '=', d);
    SplitNoSeparator(d, '=');
    assert Split(seg, '=') == [key, d];
    DecimalRoundTrip(n);
  }

  /** Parsing a formatted locator recovers mailbox, UID and UIDVALIDITY, for
      a mailbox without `;` that does not end in `/`. */
  lemma LocatorRoundTrip(mailbox: string, uid: nat, uidValidity: nat)
    requires ';' !in mailbox
    requires |mailbox| == 0 || mailbox[|mailbox| - 1] != '/'
    ensures Parse(Format(mailbox, uid, uidValidity))
         == Success(map["mailbox" := Text(mailbox), "UID" := Number(uid), "UIDVALIDITY" := Number(uidValidity)])
    ensures ToMessageRef(Parse(Format(mailbox, uid, uidValidity)).value) == Success(MessageRef(Text(mailbox), uid, uidValidity))
  {
    StripFormat(mailbox, uid, uidValidity);
    var stripped := [mailbox, "UID=" + NatToDecimal(uid), "UIDVALIDITY=" + NatToDecimal(uidValidity)];
    assert stripped[1..] == ["UID=" + NatToDecimal(uid), "UIDVALIDITY=" + NatToDecimal(uidValidity)];
    ParseFormattedSegments(mailbox, uid, uidValidity);
  }

  /** The stripped segments of a formatted locator. */
  lemma StripFormat(mailbox: string, uid: nat, uidValidity: nat)
    requires ';' !in mailbox
    requires |mailbox| == 0 || mailbox[|mailbox| - 1] != '/'
    ensures StripAll(Split(Format(mailbox, uid, uidValidity), ';'))
         == [mailbox, "UID=" + NatToDecimal(uid), "UIDVALIDITY=" + NatToDecimal(uidValidity)]
  {
    var du, dv := NatToDecimal(uid), NatToDecimal(uidValidity);
    var s1, s2 := "UID=" + du + "/", "UIDVALIDITY=" + dv;
    SplitFormat(mailbox, uid, uidValidity);
    RStripNoTrailing(mailbox, '/');
    SegmentRoundTrip("UID", uid, "/");
    SegmentRoundTrip("UIDVALIDITY", uidValidity, "");
    assert "UID" + "=" + du + "/" == s1;
    assert "UIDVALIDITY" + "=" + dv + "" == s2;
    var stripped := StripAll([mailbox, s1, s2]);
    assert stripped[1] == "UID=" + du;
  }

  /** The two segments of a formatted locator, parsed after the mailbox. */
  lemma ParseFormattedSegments(mailbox: string, uid: nat, uidValidity: nat)
    ensures ParseSegments(["UID=" + NatToDecimal(uid), "UIDVALIDITY=" + NatToDecimal(uidValidity)], map["mailbox" := Text(mailbox)])
         == Success(map["mailbox" := Text(mailbox), "UID" := Number(uid), "UIDVALIDITY" := Number(uidValidity)])
  {
    var du, dv := NatToDecimal(uid), NatToDecimal(uidValidity);
    var s1, s2 := "UID=" + du, "UIDVALIDITY=" + dv;
    SegmentRoundTrip("UID", uid, "");
    SegmentRoundTrip("UIDVALIDITY", uidValidity, "");
    assert "UID" + "=" + du == s1;
    assert "UIDVALIDITY" + "=" + dv == s2;
    var acc1 := map["mailbox" := Text(mailbox), "UID" := Number(uid)];
    assert ParseSegments([s1, s2], map["mailbox" := Text(mailbox)]) == ParseSegments([s2], acc1) by {
      assert [s1, s2][1..] == [s2];
    }
    assert ParseSegments([s2], acc1) == ParseSegments([], acc1["UIDVALIDITY" := Number(uidValidity)]) by {
      assert [s2][1..] == [];
    }
  }

  /** The formatted locator splits at `;` into its three segments. */
  lemma SplitFormat(mailbox: string, uid: nat, uidValidity: nat)
    requires ';' !in mailbox
    ensures Split(Format(mailbox, uid, uidValidity), ';')
         == [mailbox, "UID=" + NatToDecimal(uid) + "/", "UIDVALIDITY=" + NatToDecimal(uidValidity)]
  {
    var du, dv := NatToDecimal(uid), NatToDecimal(uidValidity);
    var s1, s2 := "UID=" + du + "/", "UIDVALIDITY=" + dv;
    DecimalHasNoSeparators(du);
    DecimalHasNoSeparators(dv);
    assert ';' !in s1 && ';' !in s2;
    FormatShape(mailbox, uid, uidValidity);
    SplitAtFirst(mailbox, ';', s1 + [';'] + s2);
    SplitAtFirst(s1, ';', s2);
    SplitNoSeparator(s2, ';');
  }

  /** The locator as its three segments joined by `;`. */
  lemma FormatShape(mailbox: string, uid: nat, uidValidity: nat)
    ensures var s1, s2 := "UID=" + NatToDecimal(uid) + "/", "UIDVALIDITY=" + NatToDecimal(uidValidity);
            Format(mailbox, uid, uidValidity) == mailbox + [';'] + (s1 + [';'] + s2)
  {
    assert ";UID=" == [';'] + "UID=";
    assert "/;UIDVALIDITY=" == "/" + [';'] + "UIDVALIDITY=";
  }
}

=== FILE: naming.dfy ===
/** How the transfer stages name what they upload: the object-store key is
    the source name placed under the target directory, with `.gz` appended
    when compressing and then `.gpg` when encrypting; the local temporary file
    goes through the same suffixes. */
module S3Naming {
  import opened Wrappers
  import opened Paths
  import opened FileTransforms

  /** `name` with the write-path suffixes, compression first. */
  function AddSuffixes(name: string, compress: bool, encrypt: bool): string {
    name + (if compress then GzipSuffix else "") + (if encrypt then GpgSuffix else "")
  }

  /** The read-path inverse: drop `.gpg`, then `.gz`. */
  function StripSuffixes(name: string, compress: bool, encrypt: bool): string {
    var decrypted := if encrypt then DropLast4(name) else name;
    if compress && |decrypted| >= 3 then decrypted[..|decrypted| - 3] else decrypted
  }

  /** Stripping the suffixes in reverse order recovers the logical name. */
  lemma StripInvertsAdd(name: string, compress: bool, encrypt: bool)
    ensures StripSuffixes(AddSuffixes(name, compress, encrypt), compress, encrypt) == name
  {
    var gz := name + (if compress then GzipSuffix else "");
    assert AddSuffixes(name, compress, encrypt) == gz + (if encrypt then GpgSuffix else "");
    if encrypt {
      var full := gz + GpgSuffix;
      assert full[..|full| - 4] == gz;
    } else {
      assert gz + "" == gz;
    }
    if compress {
      assert gz[..|gz| - 3] == name;
    } else {
      assert name + "" == name;
    }
  }

  /** The key `_put_sftp_file_on_s3` uploads a remote file to. */
  function SftpS3Key(s3Directory: string, fname: string, compress: bool, recipient: Option<string>): (key: string)
    ensures var base := PathJoin(s3Directory, Basename(fname));
            && |key| == |base| + (if compress then 3 else 0) + (if recipient.Some? then 4 else 0)
            && key[..|base|] == base
  {
    AddSuffixes(PathJoin(s3Directory, Basename(fname)), compress, recipient.Some?)
  }

  /** The name an attachment is uploaded under, before the directory:
      its capture time in ISO format, `_`, its file name. */
  function ImapRemoteKey(isoDate: string, remoteName: string): string {
    isoDate + "_" + remoteName
  }

  /** The key `_put_imap_attachments_on_s3` uploads an attachment to. */
  function ImapS3Key(s3Directory: string, isoDate: string, remoteName: string, compress: bool, recipient: Option<string>): (key: string)
    ensures var base := PathJoin(s3Directory, ImapRemoteKey(isoDate, remoteName));
            && |key| == |base| + (if compress then 3 else 0) + (if recipient.Some? then 4 else 0)
            && key[..|base|] == base
  {
    AddSuffixes(PathJoin(s3Directory, ImapRemoteKey(isoDate, remoteName)), compress, recipient.Some?)
  }

  /** The suffixes `AddSuffixes` leaves at the end of a name. */
  lemma SuffixEndings(name: string, compress: bool, encrypt: bool)
    ensures var n := AddSuffixes(name, compress, encrypt);
            && (encrypt ==> |n| >= 4 && n[|n| - 4..] == GpgSuffix)
            && (compress && encrypt ==> |n| >= 7 && n[|n| - 7..] == GzipSuffix + GpgSuffix)
            && (compress && !encrypt ==> |n| >= 3 && n[|n| - 3..] == GzipSuffix)
  {
    var n := AddSuffixes(name, compress, encrypt);
    if compress && encrypt {
      assert n == name + (GzipSuffix + GpgSuffix);
    } else if encrypt {
      assert n == name + GpgSuffix;
    } else if compress {
      assert n == name + GzipSuffix;
    }
  }

  /** Appending the suffixes extends the basename by the same suffixes. */
  lemma BasenameOfSuffixed(name: string, compress: bool, encrypt: bool)
    ensures Basename(AddSuffixes(name, compress, encrypt)) == AddSuffixes(Basename(name), compress, encrypt)
  {
    var suffix := (if compress then GzipSuffix else "") + (if encrypt then GpgSuffix else "");
    assert AddSuffixes(name, compress, encrypt) == name + suffix;
    assert AddSuffixes(Basename(name), compress, encrypt) == Basename(name) + suffix;
    BasenameAppend(name, suffix);
  }

  /** An SFTP key is the remote file's basename under the directory plus
      the suffixes: `.gpg` last iff encrypting, `.gz` before it iff
      compressing, and its own basename is the remote basename plus them. */
  lemma SftpKeyShape(s3Directory: string, fname: string, compress: bool, recipient: Option<string>)
    ensures var key := SftpS3Key(s3Directory, fname, compress, recipient);
            && StripSuffixes(key, compress, recipient.Some?) == PathJoin(s3Directory, Basename(fname))
            && Basename(key) == AddSuffixes(Basename(fname), compress, recipient.Some?)
            && (recipient.Some? ==> |key| >= 4 && key[|key| - 4..] == GpgSuffix)
            && (compress && recipient.Some? ==> |key| >= 7 && key[|key| - 7..] == GzipSuffix + GpgSuffix)
            && (compress && recipient.None? ==> |key| >= 3 && key[|key| - 3..] == GzipSuffix)
  {
    var b := Basename(fname);
    var base := PathJoin(s3Directory, b);
    var key := SftpS3Key(s3Directory, fname, compress, recipient);
    assert key == AddSuffixes(base, compress, recipient.Some?);
    StripInvertsAdd(base, compress, recipient.Some?);
    SuffixEndings(base, compress, recipient.Some?);
    BasenameOfSuffixed(base, compress, recipient.Some?);
    BasenameOfJoin(s3Directory, b);
    assert Basename(base) == b;
  }

  /** An IMAP key is the attachment's remote key under the directory plus the
      same suffixes. */
  lemma ImapKeyShape(s3Directory: string, isoDate: string, remoteName: string, compress: bool, recipient: Option<string>)
    ensures var key := ImapS3Key(s3Directory, isoDate, remoteName, compress, recipient);
            && StripSuffixes(key, compress, recipient.Some?) == PathJoin(s3Directory, isoDate + "_" + remoteName)
            && (recipient.Some? ==> |key| >= 4 && key[|key| - 4..] == GpgSuffix)
            && (compress && recipient.Some? ==> |key| >= 7 && key[|key| - 7..] == GzipSuffix + GpgSuffix)
            && (compress && recipient.None? ==> |key| >= 3 && key[|key| - 3..] == GzipSuffix)
  {
    StripInvertsAdd(PathJoin(s3Directory, ImapRemoteKey(isoDate, remoteName)), compress, recipient.Some?);
    SuffixEndings(PathJoin(s3Directory, ImapRemoteKey(isoDate, remoteName)), compress, recipient.Some?);
  }

  /** The local write path as intended: compress into `f.gz` and remove the
      input, then encrypt into `.gpg` and remove the input. Afterwards only the
      final artifact can remain, and its name carries the key's suffixes.
      `gpgProduced` says whether the external gpg run wrote its output. */
  function WriteTransforms(files: set<string>, f: string, compress: bool, recipient: Option<string>, gpgProduced: bool)
    : (r: Result<Transformed, FileError>)
    ensures r.Success? <==> f in files
    ensures r.Success? ==> r.value.name == AddSuffixes(f, compress, recipient.Some?)
    ensures r.Success? && (recipient.None? || gpgProduced) ==> r.value.name in r.value.files
    ensures r.Success? && recipient.Some? && !gpgProduced && r.value.name !in files ==> r.value.name !in r.value.files
    ensures r.Success? && (compress || recipient.Some?) ==> f !in r.value.files
    ensures r.Success? ==> forall g :: g in r.value.files && g !in files ==> g == r.value.name
  {
    if f !in files then Failure(NoSuchFile(f))
    else
      var afterGzip := if compress then var z := GzipFile(files, f).value; Transformed(z.name, z.files - {f})
                       else Transformed(f, files);
      assert compress ==> afterGzip.name != f;
      match recipient
      case None => Success(afterGzip)
      case Some(who) =>
        var enc := GpgEncrypt(afterGzip.files, afterGzip.name, who, gpgProduced);
        assert enc.name != afterGzip.name;
        Success(Transformed(enc.name, enc.files - {afterGzip.name}))
  }

  /** The write path as the transfer stages call it: `gzip_file` and
      `gpg_encrypt` are passed a `delete_original` argument they do not
      accept, so each call fails before doing anything. */
  function WriteTransformsAsWritten(files: set<string>, f: string, compress: bool, recipient: Option<string>)
    : (r: Result<Transformed, string>)
    ensures r.Success? <==> !compress && recipient.None?
  {
    if compress then Failure("gzip_file() got an unexpected keyword argument 'delete_original'")
    else if recipient.Some? then Failure("gpg_encrypt() got an unexpected keyword argument 'delete_original'")
    else Success(Transformed(f, files))
  }

  /** As written, any configuration that compresses or encrypts fails on
      every file, while the intended write path succeeds on each existing file. */
  lemma AsWrittenTransformsFail(files: set<string>, f: string, compress: bool, recipient: Option<string>, gpgProduced: bool)
    requires f in files && (compress || recipient.Some?)
    ensures WriteTransformsAsWritten(files, f, compress, recipient).Failure?
    ensures WriteTransforms(files, f, compress, recipient, gpgProduced).Success?
  {
  }
}

=== FILE: order.dfy ===
/** The scan order of a queue's entries, `(queue, sort_key, time_added, key)`,
    and the ordered scan of its incomplete entries. A missing sort key sorts
    before any present one; strings compare by code point. */
module QueueOrder {
  import opened Wrappers
  import opened Strings
  import opened QueueStore

  /** The columns an entry is sorted by within its queue. */
  datatype Rank = Rank(sortKey: Option<string>, timeAdded: Time, key: string)

  predicate SortKeyLess(a: Option<string>, b: Option<string>) {
    match (a, b)
    case (None, Some(_)) => true
    case (Some(x), Some(y)) => StrLess(x, y)
    case _ => false
  }

  predicate RankLess(a: Rank, b: Rank) {
    || SortKeyLess(a.sortKey, b.sortKey)
    || (a.sortKey == b.sortKey && a.timeAdded < b.timeAdded)
    || (a.sortKey == b.sortKey && a.timeAdded == b.timeAdded && StrLess(a.key, b.key))
  }

  function RankOf(s: Store, q: string, key: string): Rank
    requires (q, key) in s.entries
  {
    var e := s.entries[(q, key)];
    Rank(e.sortKey, e.timeAdded, key)
  }

  /** Entry `a` of queue `q` is scanned before entry `b`. */
  predicate Before(s: Store, q: string, a: string, b: string) {
    (q, a) in s.entries && (q, b) in s.entries && RankLess(RankOf(s, q, a), RankOf(s, q, b))
  }

  lemma SortKeyLessIrreflexive(a: Option<string>)
    ensures !SortKeyLess(a, a)
  {
    if a.Some? { StrLessIrreflexive(a.value); }
  }

  lemma SortKeyLessAsymmetric(a: Option<string>, b: Option<string>)
    requires SortKeyLess(a, b)
    ensures !SortKeyLess(b, a) && a != b
  {
    if a.Some? && b.Some? {
      StrLessAsymmetric(a.value, b.value);
      StrLessIrreflexive(a.value);
    }
  }

  lemma SortKeyLessTransitive(a: Option<string>, b: Option<string>, c: Option<string>)
    requires SortKeyLess(a, b) && SortKeyLess(b, c)
    ensures SortKeyLess(a, c)
  {
    if a.Some? { StrLessTransitive(a.value, b.value, c.value); }
  }

  lemma SortKeyLessConnected(a: Option<string>, b: Option<string>)
    requires a != b
    ensures SortKeyLess(a, b) || SortKeyLess(b, a)
  {
    if a.Some? && b.Some? { StrLessConnected(a.value, b.value); }
  }

  lemma RankLessIrreflexive(a: Rank)
    ensures !RankLess(a, a)
  {
    SortKeyLessIrreflexive(a.sortKey);
    StrLessIrreflexive(a.key);
  }

  lemma RankLessAsymmetric(a: Rank, b: Rank)
    requires RankLess(a, b)
    ensures !RankLess(b, a)
  {
    if SortKeyLess(a.sortKey, b.sortKey) {
      SortKeyLessAsymmetric(a.sortKey, b.sortKey);
    } else if a.sortKey == b.sortKey {
      SortKeyLessIrreflexive(a.sortKey);
      if a.timeAdded == b.timeAdded { StrLessAsymmetric(a.key, b.key); }
    }
  }

  lemma RankLessTransitive(a: Rank, b: Rank, c: Rank)
    requires RankLess(a, b) && RankLess(b, c)
    ensures RankLess(a, c)
  {
    if SortKeyLess(a.sortKey, b.sortKey) && SortKeyLess(b.sortKey, c.sortKey) {
      SortKeyLessTransitive(a.sortKey, b.sortKey, c.sortKey);
    } else if a.sortKey == b.sortKey == c.sortKey && a.timeAdded == b.timeAdded == c.timeAdded {
      StrLessTransitive(a.key, b.key, c.key);
    }
  }

  /** Two different ranks are always ordered one way or the other. */
  lemma RankLessConnected(a: Rank, b: Rank)
    requires a != b
    ensures RankLess(a, b) || RankLess(b, a)
  {
    if a.sortKey != b.sortKey {
      SortKeyLessConnected(a.sortKey, b.sortKey);
    } else if a.timeAdded == b.timeAdded {
      StrLessConnected(a.key, b.key);
    }
  }

  /** Within one queue the scan order is a strict total order on entries:
      irreflexive, asymmetric, transitive, and any two different keys are
      ordered, because the key comes last and is unique within the queue. */
  lemma BeforeIsStrictTotalOrder(s: Store, q: string)
    ensures forall a :: !Before(s, q, a, a)
    ensures forall a, b :: Before(s, q, a, b) ==> !Before(s, q, b, a)
    ensures forall a, b, c :: Before(s, q, a, b) && Before(s, q, b, c) ==> Before(s, q, a, c)
    ensures forall a, b :: (q, a) in s.entries && (q, b) in s.entries && a != b ==> Before(s, q, a, b) || Before(s, q, b, a)
  {
    forall a | (q, a) in s.entries { RankLessIrreflexive(RankOf(s, q, a)); }
    forall a, b | Before(s, q, a, b) { RankLessAsymmetric(RankOf(s, q, a), RankOf(s, q, b)); }
    forall a, b, c | Before(s, q, a, b) && Before(s, q, b, c) {
      RankLessTransitive(RankOf(s, q, a), RankOf(s, q, b), RankOf(s, q, c));
    }
    forall a, b | (q, a) in s.entries && (q, b) in s.entries && a != b {
      RankLessConnected(RankOf(s, q, a), RankOf(s, q, b));
    }
  }

  /** `m` comes before every other key of `ks`. */
  predicate IsFirst(s: Store, q: string, m: string, ks: set<string>) {
    m in ks && forall k :: k in ks && k != m ==> Before(s, q, m, k)
  }

  /** A finite non-empty set of a queue's keys has a first element. */
  lemma {:induction false} FirstExists(s: Store, q: string, ks: set<string>)
    requires ks != {} && forall k :: k in ks ==> (q, k) in s.entries
    ensures exists m :: IsFirst(s, q, m, ks)
    decreases |ks|
  {
    BeforeIsStrictTotalOrder(s, q);
    var x :| x in ks;
    var rest := ks - {x};
    if rest == {} {
      assert ks == {x};
      assert IsFirst(s, q, x, ks);
    } else {
      FirstExists(s, q, rest);
      var m :| IsFirst(s, q, m, rest);
      if Before(s, q, x, m) {
        assert IsFirst(s, q, x, ks);
      } else {
        assert IsFirst(s, q, m, ks);
      }
    }
  }

  /** At most one key of a set is first. */
  lemma FirstUnique(s: Store, q: string, ks: set<string>)
    ensures forall a, b :: IsFirst(s, q, a, ks) && IsFirst(s, q, b, ks) ==> a == b
  {
    forall a, b | IsFirst(s, q, a, ks) && IsFirst(s, q, b, ks) ensures a == b {
      if a != b {
        RankLessAsymmetric(RankOf(s, q, a), RankOf(s, q, b));
      }
    }
  }

  /** The keys of `q`'s incomplete entries. */
  function IncompleteKeys(s: Store, q: string): (ks: set<string>)
    ensures forall k :: k in ks <==> (q, k) in s.entries && !s.entries[(q, k)].isComplete
  {
    set qk | qk in s.entries && qk.0 == q && !s.entries[qk].isComplete :: qk.1
  }

  /** The keys of `ks` in scan order. */
  function SortedKeys(s: Store, q: string, ks: set<string>): (r: seq<string>)
    requires forall k :: k in ks ==> (q, k) in s.entries
    ensures |r| == |ks|
    ensures forall k :: k in ks <==> k in r
    ensures forall i, j :: 0 <= i < j < |r| ==> Before(s, q, r[i], r[j])
    decreases |ks|
  {
    if ks == {} then []
    else
      FirstExists(s, q, ks);
      FirstUnique(s, q, ks);
      var m :| IsFirst(s, q, m, ks);
      var rest := SortedKeys(s, q, ks - {m});
      assert forall j :: 0 <= j < |rest| ==> rest[j] in ks - {m};
      [m] + rest
  }

  /** `QueueEntry.objects.filter(queue=q, is_complete=False)`: every
      incomplete entry of `q` exactly once, in scan order. */
  function ListIncomplete(s: Store, q: string): (r: seq<string>)
    ensures forall k :: k in r <==> (q, k) in s.entries && !s.entries[(q, k)].isComplete
    ensures forall i, j :: 0 <= i < j < |r| ==> Before(s, q, r[i], r[j])
    ensures forall i, j :: 0 <= i < j < |r| ==> r[i] != r[j]
  {
    var r := SortedKeys(s, q, IncompleteKeys(s, q));
    BeforeIsStrictTotalOrder(s, q);
    r
  }
}

=== FILE: paths.dfy ===
/** POSIX path helpers as Python's `os.path` computes them for two arguments. */
module Paths {

  /** `os.path.join(a, b)`: an absolute `b` replaces `a`; otherwise a single
      `/` is inserted unless `a` is empty or already ends with one. */
  function PathJoin(a: string, b: string): (r: string)
    ensures |b| > 0 && b[0] == '/' ==> r == b
    ensures (|b| == 0 || b[0] != '/') ==> |r| >= |a| + |b| && r[|r| - |b|..] == b && r[..|a|] == a
  {
    if |b| > 0 && b[0] == '/' then b
    else if |a| == 0 || a[|a| - 1] == '/' then a + b
    else a + "/" + b
  }

  /** `os.path.basename(p)`: everything after the last `/`. */
  function Basename(p: string): (r: string)
    ensures '/' !in r
    ensures |r| <= |p| && r == p[|p| - |r|..]
    ensures |r| == |p| || p[|p| - |r| - 1] == '/'
  {
    if |p| == 0 || p[|p| - 1] == '/' then ""
    else Basename(p[..|p| - 1]) + [p[|p| - 1]]
  }

  /** Appending text without a `/` extends the basename by that text. */
  lemma {:induction false} BasenameAppend(p: string, suffix: string)
    requires '/' !in suffix
    ensures Basename(p + suffix) == Basename(p) + suffix
  {
    if |suffix| > 0 {
      var shorter := suffix[..|suffix| - 1];
      BasenameAppend(p, shorter);
      assert (p + suffix)[..|p + suffix| - 1] == p + shorter;
      assert shorter + [suffix[|suffix| - 1]] == suffix;
    } else {
      assert p + suffix == p;
    }
  }

  /** A name without `/`, joined under any directory, is that join's basename. */
  lemma BasenameOfJoin(dir: string, name: string)
    requires '/' !in name
    ensures Basename(PathJoin(dir, name)) == name
  {
    var head := if |dir| == 0 || dir[|dir| - 1] == '/' then dir else dir + "/";
    assert PathJoin(dir, name) == head + name;
    assert Basename(head) == "";
    BasenameAppend(head, name);
  }
}

=== FILE: pipeline.dfy ===
/** What the stages share: their failures, their outcome, and the enqueue
    loop of the discovery stages. A stage keeps every store write made before
    it fails; a failure stops the rest of its batch. */
module Pipeline {
  import opened Wrappers
  import opened QueueStore
  import opened FileTransforms
  import opened ImapLocator

  /** Why a stage stopped: a database error, a failed transport call (the
      call and the item it was about), a missing local file, a malformed
      locator, or an exception from the user's processing function. */
  datatype Fault =
    | Db(dbError: DbError)
    | Transport(call: string, item: string)
    | File(fileError: FileError)
    | Locator(locatorError: LocatorError)
    | Callback(path: string)

  /** The store when the stage stopped, the failure that stopped it if any,
      and how many items of its batch it had fully handled. */
  datatype StageResult = StageResult(store: Store, fault: Option<Fault>, handled: nat)

  predicate IsComplete(s: Store, q: string, key: string) {
    (q, key) in s.entries && s.entries[(q, key)].isComplete
  }

  /** The discovery loop: get-or-create an entry for each key in turn. */
  function EnqueueAll(s: Store, q: string, keys: seq<string>): (r: StageResult)
    requires q in s.queues
    ensures r.handled <= |keys| && (r.fault.None? <==> r.handled == |keys|)
    ensures r.store.queues == s.queues
    ensures s.entries.Keys <= r.store.entries.Keys
    ensures forall qk :: qk in s.entries ==> r.store.entries[qk] == s.entries[qk]
    ensures forall qk :: qk in r.store.entries && qk !in s.entries ==>
              && qk.0 == q && (exists i :: 0 <= i < r.handled && keys[i] == qk.1)
              && !r.store.entries[qk].isComplete
              && r.store.entries[qk].timeCompleted.None?
              && r.store.entries[qk].sortKey.None?
    ensures forall i :: 0 <= i < r.handled ==> (q, keys[i]) in r.store.entries
    decreases |keys|
  {
    if |keys| == 0 then StageResult(s, None, 0)
    else match GetOrCreateEntry(s, q, keys[0])
      case Failure(e) => StageResult(s, Some(Db(e)), 0)
      case Success(got) =>
        var rest := EnqueueAll(got.store, q, keys[1..]);
        assert forall i :: 0 <= i < rest.handled ==> keys[1..][i] == keys[i + 1];
        StageResult(rest.store, rest.fault, rest.handled + 1)
  }

  /** Discovery keeps the store's invariant, whatever its outcome. */
  lemma {:induction false} EnqueueAllPreservesValid(s: Store, q: string, keys: seq<string>)
    requires q in s.queues && Valid(s)
    ensures Valid(EnqueueAll(s, q, keys).store)
    decreases |keys|
  {
    if |keys| > 0 && GetOrCreateEntry(s, q, keys[0]).Success? {
      EnqueueAllPreservesValid(GetOrCreateEntry(s, q, keys[0]).value.store, q, keys[1..]);
    }
  }

  /** A completed enqueue adds exactly one entry per distinct key that was
      not yet in the queue, and nothing else. */
  lemma EnqueueAllKeys(s: Store, q: string, keys: seq<string>)
    requires q in s.queues
    requires EnqueueAll(s, q, keys).fault.None?
    ensures EnqueueAll(s, q, keys).store.entries.Keys == s.entries.Keys + (set k | k in keys :: (q, k))
  {
    var r := EnqueueAll(s, q, keys);
    forall qk | qk in (set k | k in keys :: (q, k)) ensures qk in r.store.entries {
      var i :| 0 <= i < |keys| && qk == (q, keys[i]);
    }
  }

  /** Enqueueing keys that are all present changes nothing. */
  lemma {:induction false} EnqueueAllPresent(s: Store, q: string, keys: seq<string>)
    requires q in s.queues
    requires forall i :: 0 <= i < |keys| ==> (q, keys[i]) in s.entries
    ensures EnqueueAll(s, q, keys) == StageResult(s, None, |keys|)
    decreases |keys|
  {
    if |keys| > 0 {
      EnqueueAllPresent(s, q, keys[1..]);
    }
  }
}

=== FILE: process.dfy ===
/** The processing stage: every incomplete entry of the process queue names
    an object in the store; it is downloaded to a temporary file, run through
    gpg, handed to the user's processing function, removed, and the entry
    marked complete. The first failure ends the stage. `ProcessS3Files` is the
    stage as written, which always runs gpg; `ProcessQueue` and `ProcessOne`
    run gpg only when asked to decrypt. */
module ProcessStage {
  import opened Wrappers
  import opened Paths
  import opened QueueStore
  import opened QueueOrder
  import opened FileTransforms
  import opened S3Naming
  import opened Pipeline

  /** The outcomes of the calls the stage makes: the download of a key, the
      random part of the temporary file name made for it, whether gpg wrote
      its output for it, and whether the processing function returned
      normally for a local path. */
  datatype ProcessEnv = ProcessEnv(
    get: string -> bool,
    tempPrefix: string -> string,
    gpgProduced: string -> bool,
    callback: string -> bool)

  /** The temporary file an object is downloaded to: a fresh name ending in
      the key's basename. */
  function DownloadPath(key: string, env: ProcessEnv): (r: string)
    ensures |r| >= |Basename(key)| && r[|r| - |Basename(key)|..] == Basename(key)
  {
    env.tempPrefix(key) + Basename(key)
  }

  /** The local file after the decrypt step, when `decrypt` is honoured. */
  function LocalFile(key: string, env: ProcessEnv, decrypt: bool): (r: Transformed)
    ensures decrypt ==> r.name == DropLast4(DownloadPath(key, env))
    ensures !decrypt ==> r.name == DownloadPath(key, env) && r.name in r.files
    ensures decrypt ==> (r.name in r.files <==> env.gpgProduced(key) && DownloadPath(key, env) != "")
  {
    var tmp := DownloadPath(key, env);
    if decrypt then GpgDecrypt({tmp}, tmp, true, env.gpgProduced(key)).value
    else Transformed(tmp, {tmp})
  }

  /** The path the processing function is given for an object. */
  function ProcessedPath(key: string, env: ProcessEnv, decrypt: bool): string {
    LocalFile(key, env, decrypt).name
  }

  /** An object goes through: it downloads, the file to process exists after
      the decrypt step, and the processing function returns normally. */
  predicate Processes(key: string, env: ProcessEnv, decrypt: bool) {
    && env.get(key)
    && env.callback(ProcessedPath(key, env, decrypt))
    && ProcessedPath(key, env, decrypt) in LocalFile(key, env, decrypt).files
  }

  /** One entry of `process_s3_files`, with the decrypt flag honoured:
      download, decrypt when asked, process, remove, mark complete. A failure
      writes nothing. */
  function ProcessOne(s: Store, q: string, key: string, env: ProcessEnv, decrypt: bool): (r: Result<Store, Fault>)
    requires (q, key) in s.entries
    ensures r.Success? <==> Processes(key, env, decrypt)
    ensures r.Success? ==> IsComplete(r.value, q, key) && r.value.entries.Keys == s.entries.Keys && r.value.queues == s.queues
    ensures r.Success? ==> forall qk :: qk in s.entries && qk != (q, key) ==> r.value.entries[qk] == s.entries[qk]
    ensures r.Failure? && !env.get(key) ==> r.error == Transport("s3.get", key)
    ensures r.Failure? && env.get(key) ==> r.error.Callback? || r.error.File?
  {
    if !env.get(key) then Failure(Transport("s3.get", key))
    else
      var local := LocalFile(key, env, decrypt);
      if !env.callback(local.name) then Failure(Callback(local.name))
      else if local.name !in local.files then Failure(File(NoSuchFile(local.name)))
      else Success(MarkComplete(s, q, key))
  }

  /** One entry of `process_s3_files` as written: the decrypt flag the stage
      is given is never consulted, so every object goes through gpg. */
  function ProcessOneAsWritten(s: Store, q: string, key: string, env: ProcessEnv, decrypt: bool): (r: Result<Store, Fault>)
    requires (q, key) in s.entries
    ensures r.Success? <==> Processes(key, env, true)
  {
    ProcessOne(s, q, key, env, true)
  }

  /** As written, an object stored without encryption (gpg writes nothing
      for it) can never be processed, even with decryption switched off; with
      the flag honoured, it is processed whenever it downloads and the
      processing function accepts the downloaded file itself. */
  lemma AsWrittenDecryptsPlainObjects(s: Store, q: string, key: string, env: ProcessEnv)
    requires (q, key) in s.entries
    requires !env.gpgProduced(key)
    ensures ProcessOneAsWritten(s, q, key, env, false).Failure?
    ensures ProcessOne(s, q, key, env, false).Success? <==> env.get(key) && env.callback(DownloadPath(key, env))
  {
  }

  /** For an encrypted SFTP upload, the processing function receives the
      temporary file named after the remote file's basename, still carrying
      `.gz` when the upload was compressed: nothing on the read path
      decompresses. */
  lemma ProcessedNameOfSftpKey(s3Directory: string, fname: string, compress: bool, recipient: string, env: ProcessEnv)
    ensures var key := SftpS3Key(s3Directory, fname, compress, Some(recipient));
            ProcessedPath(key, env, true) == env.tempPrefix(key) + AddSuffixes(Basename(fname), compress, false)
  {
    var b := Basename(fname);
    var base := PathJoin(s3Directory, b);
    var key := SftpS3Key(s3Directory, fname, compress, Some(recipient));
    BasenameOfSuffixed(base, compress, true);
    BasenameOfJoin(s3Directory, b);
    var plain := AddSuffixes(b, compress, false);
    EncryptedSuffixes(b, compress);
    DownloadPathOf(key, env, plain + GpgSuffix);
    DropGpgSuffix(env.tempPrefix(key), plain);
  }

  lemma EncryptedSuffixes(name: string, compress: bool)
    ensures AddSuffixes(name, compress, true) == AddSuffixes(name, compress, false) + GpgSuffix
  {
    if !compress {
      assert AddSuffixes(name, compress, false) == name;
    }
  }

  lemma DropGpgSuffix(prefix: string, name: string)
    ensures DropLast4(prefix + (name + GpgSuffix)) == prefix + name
  {
    var tmp := prefix + (name + GpgSuffix);
    assert tmp[..|tmp| - 4] == prefix + name;
  }

  lemma DownloadPathOf(key: string, env: ProcessEnv, base: string)
    requires Basename(key) == base
    ensures DownloadPath(key, env) == env.tempPrefix(key) + base
  {
  }

  /** The loop of `process_s3_files` over a snapshot of keys. */
  function ProcessEntries(s: Store, q: string, keys: seq<string>, env: ProcessEnv, decrypt: bool): (r: StageResult)
    requires forall i :: 0 <= i < |keys| ==> (q, keys[i]) in s.entries
    ensures r.handled <= |keys| && (r.fault.None? <==> r.handled == |keys|)
    ensures r.store.queues == s.queues && r.store.entries.Keys == s.entries.Keys
    decreases |keys|
  {
    if |keys| == 0 then StageResult(s, None, 0)
    else match ProcessOne(s, q, keys[0], env, decrypt)
      case Failure(f) => StageResult(s, Some(f), 0)
      case Success(s1) =>
        var rest := ProcessEntries(s1, q, keys[1..], env, decrypt);
        StageResult(rest.store, rest.fault, rest.handled + 1)
  }

  lemma ProcessUnfold(s: Store, q: string, keys: seq<string>, env: ProcessEnv, decrypt: bool)
    requires forall i :: 0 <= i < |keys| ==> (q, keys[i]) in s.entries
    requires |keys| > 0 && ProcessOne(s, q, keys[0], env, decrypt).Success?
    ensures var s1 := ProcessOne(s, q, keys[0], env, decrypt).value;
            && (forall i :: 0 <= i < |keys| - 1 ==> (q, keys[1..][i]) in s1.entries)
            && ProcessEntries(s, q, keys, env, decrypt).store == ProcessEntries(s1, q, keys[1..], env, decrypt).store
            && ProcessEntries(s, q, keys, env, decrypt).fault == ProcessEntries(s1, q, keys[1..], env, decrypt).fault
            && ProcessEntries(s, q, keys, env, decrypt).handled == ProcessEntries(s1, q, keys[1..], env, decrypt).handled + 1
  {
  }

  /** An object that went through, with its entry complete. */
  predicate Done(st: Store, q: string, key: string, env: ProcessEnv, decrypt: bool) {
    Processes(key, env, decrypt) && IsComplete(st, q, key)
  }

  lemma DoneCons(st: Store, q: string, keys: seq<string>, env: ProcessEnv, decrypt: bool, n: nat)
    requires 0 < n <= |keys| && Done(st, q, keys[0], env, decrypt)
    requires forall i :: 0 <= i < n - 1 ==> Done(st, q, keys[1..][i], env, decrypt)
    ensures forall i :: 0 <= i < n ==> Done(st, q, keys[i], env, decrypt)
  {
    assert forall i :: 0 < i < n ==> keys[i] == keys[1..][i - 1];
  }

  /** Every handled object went through and its entry is complete. */
  lemma {:induction false} ProcessHandled(s: Store, q: string, keys: seq<string>, env: ProcessEnv, decrypt: bool)
    requires forall i :: 0 <= i < |keys| ==> (q, keys[i]) in s.entries
    ensures var r := ProcessEntries(s, q, keys, env, decrypt);
            forall i :: 0 <= i < r.handled ==> Done(r.store, q, keys[i], env, decrypt)
    decreases |keys|
  {
    if |keys| > 0 && ProcessOne(s, q, keys[0], env, decrypt).Success? {
      var s1 := ProcessOne(s, q, keys[0], env, decrypt).value;
      ProcessUnfold(s, q, keys, env, decrypt);
      ProcessHandled(s1, q, keys[1..], env, decrypt);
      ProcessKeepsComplete(s1, q, keys[1..], env, decrypt, keys[0]);
      var r := ProcessEntries(s, q, keys, env, decrypt);
      DoneCons(r.store, q, keys, env, decrypt, r.handled);
    }
  }

  /** When the loop stops early, it stops on an object that did not go
      through. */
  lemma {:induction false} ProcessStopsOn(s: Store, q: string, keys: seq<string>, env: ProcessEnv, decrypt: bool)
    requires forall i :: 0 <= i < |keys| ==> (q, keys[i]) in s.entries
    ensures var r := ProcessEntries(s, q, keys, env, decrypt);
            r.handled < |keys| ==> !Processes(keys[r.handled], env, decrypt)
    decreases |keys|
  {
    if |keys| > 0 && ProcessOne(s, q, keys[0], env, decrypt).Success? {
      ProcessUnfold(s, q, keys, env, decrypt);
      ProcessStopsOn(ProcessOne(s, q, keys[0], env, decrypt).value, q, keys[1..], env, decrypt);
    }
  }

  /** The loop never makes a complete entry incomplete. */
  lemma {:induction false} ProcessKeepsComplete(s: Store, q: string, keys: seq<string>, env: ProcessEnv, decrypt: bool, k: string)
    requires forall i :: 0 <= i < |keys| ==> (q, keys[i]) in s.entries
    requires IsComplete(s, q, k)
    ensures IsComplete(ProcessEntries(s, q, keys, env, decrypt).store, q, k)
    decreases |keys|
  {
    if |keys| > 0 && ProcessOne(s, q, keys[0], env, decrypt).Success? {
      ProcessUnfold(s, q, keys, env, decrypt);
      ProcessKeepsComplete(ProcessOne(s, q, keys[0], env, decrypt).value, q, keys[1..], env, decrypt, k);
    }
  }

  /** An entry the loop did not handle is left exactly as it was: one of
      another queue, or one whose key is not among the handled keys. */
  lemma {:induction false} ProcessFrame(s: Store, q: string, keys: seq<string>, env: ProcessEnv, decrypt: bool, qk: (string, string))
    requires forall i :: 0 <= i < |keys| ==> (q, keys[i]) in s.entries
    requires qk in s.entries
    requires qk.0 == q ==> forall i :: 0 <= i < ProcessEntries(s, q, keys, env, decrypt).handled ==> keys[i] != qk.1
    ensures ProcessEntries(s, q, keys, env, decrypt).store.entries[qk] == s.entries[qk]
    decreases |keys|
  {
    if |keys| > 0 && ProcessOne(s, q, keys[0], env, decrypt).Success? {
      var s1 := ProcessOne(s, q, keys[0], env, decrypt).value;
      ProcessUnfold(s, q, keys, env, decrypt);
      var h := ProcessEntries(s1, q, keys[1..], env, decrypt).handled;
      assert qk.0 == q ==> keys[0] != qk.1;
      assert qk.0 == q ==> forall i :: 0 <= i < h ==> keys[1..][i] != qk.1 by {
        if qk.0 == q {
          forall i | 0 <= i < h ensures keys[1..][i] != qk.1 {
            assert keys[1..][i] == keys[i + 1];
          }
        }
      }
      ProcessFrame(s1, q, keys[1..], env, decrypt, qk);
    }
  }

  /** The loop keeps the store's invariant. */
  lemma {:induction false} ProcessPreservesValid(s: Store, q: string, keys: seq<string>, env: ProcessEnv, decrypt: bool)
    requires forall i :: 0 <= i < |keys| ==> (q, keys[i]) in s.entries
    requires Valid(s)
    ensures Valid(ProcessEntries(s, q, keys, env, decrypt).store)
    decreases |keys|
  {
    if |keys| > 0 && ProcessOne(s, q, keys[0], env, decrypt).Success? {
      ProcessUnfold(s, q, keys, env, decrypt);
      ProcessPreservesValid(ProcessOne(s, q, keys[0], env, decrypt).value, q, keys[1..], env, decrypt);
    }
  }

  /** The processing stage with the gpg step switched by `decrypt`:
      get-or-create the queue, then process its incomplete entries in queue
      order. `process_s3_files` is the instance `decrypt = true`. */
  function ProcessQueue(s: Store, q: string, env: ProcessEnv, decrypt: bool): (r: StageResult)
    ensures r.store.entries.Keys == s.entries.Keys
    ensures r.fault.None? ==> q in r.store.queues
  {
    match GetOrCreateQueue(s, q)
    case Failure(e) => StageResult(s, Some(Db(e)), 0)
    case Success(s1) => ProcessEntries(s1, q, ListIncomplete(s1, q), env, decrypt)
  }

  /** After a run of the stage that ended normally, every entry of the queue
      is complete, each formerly incomplete one because its object went
      through. */
  lemma ProcessStageCompletesAll(s: Store, q: string, env: ProcessEnv, decrypt: bool)
    requires ProcessQueue(s, q, env, decrypt).fault.None?
    ensures var r := ProcessQueue(s, q, env, decrypt);
            && (forall k :: (q, k) in s.entries ==> IsComplete(r.store, q, k))
            && (forall k :: (q, k) in s.entries && !s.entries[(q, k)].isComplete ==> Processes(k, env, decrypt))
  {
    ProcessStageDoesIncomplete(s, q, env, decrypt);
    ProcessStageKeepsComplete(s, q, env, decrypt);
  }

  lemma ProcessStageDoesIncomplete(s: Store, q: string, env: ProcessEnv, decrypt: bool)
    requires ProcessQueue(s, q, env, decrypt).fault.None?
    ensures var r := ProcessQueue(s, q, env, decrypt);
            forall k :: (q, k) in s.entries && !s.entries[(q, k)].isComplete ==> Done(r.store, q, k, env, decrypt)
  {
    var s1 := GetOrCreateQueue(s, q).value;
    ProcessCovers(s1, q, ListIncomplete(s1, q), env, decrypt);
  }

  lemma ProcessCovers(s: Store, q: string, keys: seq<string>, env: ProcessEnv, decrypt: bool)
    requires forall i :: 0 <= i < |keys| ==> (q, keys[i]) in s.entries
    requires ProcessEntries(s, q, keys, env, decrypt).fault.None?
    ensures var r := ProcessEntries(s, q, keys, env, decrypt);
            forall k :: k in keys ==> Done(r.store, q, k, env, decrypt)
  {
    ProcessHandled(s, q, keys, env, decrypt);
    forall k | k in keys ensures Done(ProcessEntries(s, q, keys, env, decrypt).store, q, k, env, decrypt) {
      var i :| 0 <= i < |keys| && keys[i] == k;
    }
  }

  lemma ProcessStageKeepsComplete(s: Store, q: string, env: ProcessEnv, decrypt: bool)
    ensures var r := ProcessQueue(s, q, env, decrypt);
            forall k :: IsComplete(s, q, k) ==> IsComplete(r.store, q, k)
  {
    if GetOrCreateQueue(s, q).Success? {
      var s1 := GetOrCreateQueue(s, q).value;
      forall k | IsComplete(s, q, k) ensures IsComplete(ProcessQueue(s, q, env, decrypt).store, q, k) {
        ProcessKeepsComplete(s1, q, ListIncomplete(s1, q), env, decrypt, k);
      }
    }
  }

  /** The stage never touches an entry of another queue. */
  lemma ProcessStageFrame(s: Store, q: string, env: ProcessEnv, decrypt: bool)
    ensures var r := ProcessQueue(s, q, env, decrypt);
            forall qk :: qk in s.entries && qk.0 != q ==> r.store.entries[qk] == s.entries[qk]
  {
    if GetOrCreateQueue(s, q).Success? {
      var s1 := GetOrCreateQueue(s, q).value;
      forall qk | qk in s.entries && qk.0 != q ensures ProcessQueue(s, q, env, decrypt).store.entries[qk] == s.entries[qk] {
        ProcessFrame(s1, q, ListIncomplete(s1, q), env, decrypt, qk);
      }
    }
  }

  /** When the stage stops early, it stopped on an entry whose object did not
      go through, and that entry and every later one are left as they were. */
  lemma ProcessStageStops(s: Store, q: string, env: ProcessEnv, decrypt: bool)
    requires q in s.queues
    requires ProcessQueue(s, q, env, decrypt).fault.Some?
    ensures var keys := ListIncomplete(s, q);
            var r := ProcessQueue(s, q, env, decrypt);
            && r.handled < |keys|
            && !Processes(keys[r.handled], env, decrypt)
            && forall i :: r.handled <= i < |keys| ==> r.store.entries[(q, keys[i])] == s.entries[(q, keys[i])]
  {
    var keys := ListIncomplete(s, q);
    var r := ProcessQueue(s, q, env, decrypt);
    assert GetOrCreateQueue(s, q) == Success(s);
    ProcessStopsOn(s, q, keys, env, decrypt);
    forall i | r.handled <= i < |keys| ensures r.store.entries[(q, keys[i])] == s.entries[(q, keys[i])] {
      ProcessFrame(s, q, keys, env, decrypt, (q, keys[i]));
    }
  }

  /** The stage keeps the store's invariant, whatever its outcome. */
  lemma ProcessStagePreservesValid(s: Store, q: string, env: ProcessEnv, decrypt: bool)
    requires Valid(s)
    ensures Valid(ProcessQueue(s, q, env, decrypt).store)
  {
    if GetOrCreateQueue(s, q).Success? {
      var s1 := GetOrCreateQueue(s, q).value;
      ProcessPreservesValid(s1, q, ListIncomplete(s1, q), env, decrypt);
    }
  }

  /** `process_s3_files` as written: the `decrypt` argument is never read and
      every object goes through gpg. So a stage that ends normally has had
      gpg produce a file for every object it found pending. */
  function ProcessS3Files(s: Store, q: string, env: ProcessEnv, decrypt: bool): (r: StageResult)
    ensures r.store.entries.Keys == s.entries.Keys
    ensures r.fault.None? ==> q in r.store.queues
    ensures r.fault.None? ==> forall k :: (q, k) in s.entries ==> IsComplete(r.store, q, k)
    ensures r.fault.None? ==> forall k :: (q, k) in s.entries && !s.entries[(q, k)].isComplete ==>
              Processes(k, env, true) && env.gpgProduced(k)
  {
    var r := ProcessQueue(s, q, env, true);
    assert r.fault.None? ==> forall k :: (q, k) in s.entries && !s.entries[(q, k)].isComplete ==> Processes(k, env, true) by {
      if r.fault.None? { ProcessStageCompletesAll(s, q, env, true); }
    }
    assert r.fault.None? ==> forall k :: (q, k) in s.entries ==> IsComplete(r.store, q, k) by {
      if r.fault.None? { ProcessStageCompletesAll(s, q, env, true); }
    }
    r
  }

  /** As written, a processor that does not encrypt cannot finish its
      processing stage while an object gpg makes nothing of is pending; the
      stage that honours the flag, when it ends normally, has completed it. */
  lemma AsWrittenStageFailsOnPlainObject(s: Store, q: string, env: ProcessEnv, k: string)
    requires (q, k) in s.entries && !s.entries[(q, k)].isComplete && !env.gpgProduced(k)
    ensures ProcessS3Files(s, q, env, false).fault.Some?
    ensures ProcessQueue(s, q, env, false).fault.None? ==> IsComplete(ProcessQueue(s, q, env, false).store, q, k)
  {
    if ProcessQueue(s, q, env, false).fault.None? {
      ProcessStageCompletesAll(s, q, env, false);
    }
  }
}

=== FILE: sftp.dfy ===
/** The SFTP side of the pipeline: discovery of remote files into the upload
    queue, and their transfer into the object store with the downstream
    enqueue into the process queue. Every transport call is an input. */
module SftpStages {
  import opened Wrappers
  import opened Paths
  import opened QueueStore
  import opened QueueOrder
  import opened FileTransforms
  import opened S3Naming
  import opened Pipeline
  import opened Transfer

  /** The outcomes of the calls the SFTP stages make: the directory listing,
      the file-name pattern, fetching a remote file, the temporary file name
      chosen for it, whether gpg wrote its output, the upload to a key, and
      removing the remote file. */
  datatype SftpEnv = SftpEnv(
    listdir: string -> Option<seq<string>>,
    matches: string -> bool,
    get: string -> bool,
    tempFile: string -> string,
    gpgProduced: string -> bool,
    put: string -> bool,
    remove: string -> bool)

  datatype TransferConfig = TransferConfig(s3Directory: string, removeFromSource: bool, compress: bool, recipient: Option<string>)

  /** The listed names joined under the folder, keeping those the pattern matches. */
  function MatchingPaths(folder: string, names: seq<string>, matches: string -> bool): (r: seq<string>)
    ensures forall p :: p in r <==> matches(p) && exists i :: 0 <= i < |names| && p == PathJoin(folder, names[i])
  {
    if |names| == 0 then []
    else
      var p := PathJoin(folder, names[0]);
      var rest := MatchingPaths(folder, names[1..], matches);
      assert forall i :: 1 <= i < |names| ==> names[i] == names[1..][i - 1];
      assert forall i :: 0 <= i < |names| - 1 ==> names[1..][i] == names[i + 1];
      if matches(p) then [p] + rest else rest
  }

  /** `enqueue_sftp_files`: get-or-create the queue, list the folder, and
      get-or-create an entry for every listed path the pattern matches. */
  function EnqueueSftpFiles(s: Store, queueName: string, folder: string, env: SftpEnv): (r: StageResult)
    ensures r.fault.None? ==> env.listdir(folder).Some? && queueName in r.store.queues
  {
    match GetOrCreateQueue(s, queueName)
    case Failure(e) => StageResult(s, Some(Db(e)), 0)
    case Success(s1) =>
      match env.listdir(folder)
      case None => StageResult(s1, Some(Transport("sftp.listdir", folder)), 0)
      case Some(names) => EnqueueAll(s1, queueName, MatchingPaths(folder, names, env.matches))
  }

  /** Discovery never changes an existing entry, and every entry it adds is
      an incomplete, never-completed entry of its queue. */
  lemma EnqueueSftpAddsOnly(s: Store, queueName: string, folder: string, env: SftpEnv)
    ensures var r := EnqueueSftpFiles(s, queueName, folder, env);
            && (forall qk :: qk in s.entries ==> qk in r.store.entries && r.store.entries[qk] == s.entries[qk])
            && (forall qk :: qk in r.store.entries && qk !in s.entries ==>
                  qk.0 == queueName && !r.store.entries[qk].isComplete && r.store.entries[qk].timeCompleted.None?)
  {
  }

  /** After a discovery that ran to the end, the queue holds an entry for a
      path exactly when it held one before or the path is a matching listed
      path; repeats in the listing collapse into one entry, and no other
      queue gains an entry. */
  lemma EnqueueSftpFinds(s: Store, queueName: string, folder: string, env: SftpEnv)
    requires EnqueueSftpFiles(s, queueName, folder, env).fault.None?
    ensures var r := EnqueueSftpFiles(s, queueName, folder, env);
            && (forall p :: (queueName, p) in r.store.entries <==>
                  (queueName, p) in s.entries || p in MatchingPaths(folder, env.listdir(folder).value, env.matches))
            && (forall qk :: qk in r.store.entries && qk.0 != queueName ==> qk in s.entries)
  {
    var s1 := GetOrCreateQueue(s, queueName).value;
    EnqueueAllKeys(s1, queueName, MatchingPaths(folder, env.listdir(folder).value, env.matches));
  }

  /** Discovery keeps the store's invariant, whatever its outcome. */
  lemma EnqueueSftpPreservesValid(s: Store, queueName: string, folder: string, env: SftpEnv)
    requires Valid(s)
    ensures Valid(EnqueueSftpFiles(s, queueName, folder, env).store)
  {
    if GetOrCreateQueue(s, queueName).Success? && env.listdir(folder).Some? {
      var s1 := GetOrCreateQueue(s, queueName).value;
      EnqueueAllPreservesValid(s1, queueName, MatchingPaths(folder, env.listdir(folder).value, env.matches));
    }
  }

  /** Discovering again against an unchanged listing changes nothing. */
  lemma RediscoverSftpIsNoOp(s: Store, queueName: string, folder: string, env: SftpEnv)
    requires EnqueueSftpFiles(s, queueName, folder, env).fault.None?
    ensures var once := EnqueueSftpFiles(s, queueName, folder, env).store;
            var twice := EnqueueSftpFiles(once, queueName, folder, env);
            twice.fault.None? && twice.store == once
  {
    var once := EnqueueSftpFiles(s, queueName, folder, env).store;
    var s1 := GetOrCreateQueue(s, queueName).value;
    var paths := MatchingPaths(folder, env.listdir(folder).value, env.matches);
    assert queueName in EnqueueAll(s1, queueName, paths).store.queues;
    assert GetOrCreateQueue(once, queueName) == Success(once);
    EnqueueAllPresent(once, queueName, paths);
  }

  /** `_put_sftp_file_on_s3`: fetch, transform, upload under the derived
      key, then remove the remote file if asked; returns the key. */
  function PutSftpFile(fname: string, cfg: TransferConfig, env: SftpEnv): (r: Result<string, Fault>)
    ensures r.Success? ==> r.value == SftpS3Key(cfg.s3Directory, fname, cfg.compress, cfg.recipient)
    ensures r.Success? <==>
              && env.get(fname)
              && (cfg.recipient.None? || env.gpgProduced(fname))
              && env.put(SftpS3Key(cfg.s3Directory, fname, cfg.compress, cfg.recipient))
              && (cfg.removeFromSource ==> env.remove(fname))
  {
    if !env.get(fname) then Failure(Transport("sftp.get", fname))
    else
      var key := SftpS3Key(cfg.s3Directory, fname, cfg.compress, cfg.recipient);
      var tmp := env.tempFile(fname);
      var local := WriteTransforms({tmp}, tmp, cfg.compress, cfg.recipient, env.gpgProduced(fname)).value;
      assert cfg.recipient.Some? ==> |local.name| > |tmp|;
      if local.name !in local.files then Failure(File(NoSuchFile(local.name)))
      else if !env.put(key) then Failure(Transport("s3.put", key))
      else if cfg.removeFromSource && !env.remove(fname) then Failure(Transport("sftp.remove", fname))
      else Success(key)
  }

  /** The upload step `send_sftp_files_into_s3` runs per entry: the one key
      its file went to. */
  function PutSftpKeys(fname: string, cfg: TransferConfig, env: SftpEnv): (r: Result<seq<string>, Fault>)
    ensures r.Success? <==> PutSftpFile(fname, cfg, env).Success?
    ensures r.Success? ==> r.value == [SftpS3Key(cfg.s3Directory, fname, cfg.compress, cfg.recipient)]
  {
    match PutSftpFile(fname, cfg, env)
    case Failure(f) => Failure(f)
    case Success(key) => Success([key])
  }

  function SftpUpload(cfg: TransferConfig, env: SftpEnv): string -> Result<seq<string>, Fault> {
    fname => PutSftpKeys(fname, cfg, env)
  }

  /** `send_sftp_files_into_s3`: get-or-create both queues, scan the upload
      queue's incomplete entries in order and transfer each file; the first
      failure ends the stage. */
  function SendSftpFilesIntoS3(s: Store, uploadQueue: string, processQueue: string, cfg: TransferConfig, env: SftpEnv)
    : (r: StageResult)
    ensures s.entries.Keys <= r.store.entries.Keys
    ensures r.fault.None? ==> uploadQueue in r.store.queues && processQueue in r.store.queues
  {
    TransferStage(s, uploadQueue, processQueue, SftpUpload(cfg, env))
  }

  /** What a delivered SFTP entry means: its file went to the object store
      under its derived key, the entry is complete, and that key has an
      incomplete process-queue entry. */
  lemma SftpDelivered(st: Store, uq: string, pq: string, fname: string, cfg: TransferConfig, env: SftpEnv)
    requires Delivered(st, uq, pq, fname, SftpUpload(cfg, env))
    ensures PutSftpFile(fname, cfg, env).Success? && IsComplete(st, uq, fname)
    ensures var key := SftpS3Key(cfg.s3Directory, fname, cfg.compress, cfg.recipient);
            (pq, key) in st.entries && !st.entries[(pq, key)].isComplete
  {
    assert SftpUpload(cfg, env)(fname).value[0] == SftpS3Key(cfg.s3Directory, fname, cfg.compress, cfg.recipient);
  }

  /** Every entry the stage handled has its file in the object store under
      its derived key, is complete, and that key has an incomplete
      process-queue entry. */
  lemma SendSftpDelivers(s: Store, uq: string, pq: string, cfg: TransferConfig, env: SftpEnv, s2: Store)
    requires uq != pq && QueuesReady(s, uq, pq, s2)
    ensures var keys := ListIncomplete(s2, uq);
            var r := SendSftpFilesIntoS3(s, uq, pq, cfg, env);
            forall i :: 0 <= i < r.handled ==>
              && i < |keys|
              && PutSftpFile(keys[i], cfg, env).Success?
              && IsComplete(r.store, uq, keys[i])
              && var key := SftpS3Key(cfg.s3Directory, keys[i], cfg.compress, cfg.recipient);
                 (pq, key) in r.store.entries && !r.store.entries[(pq, key)].isComplete
  {
    var keys := ListIncomplete(s2, uq);
    var r := SendSftpFilesIntoS3(s, uq, pq, cfg, env);
    StageDelivers(s, uq, pq, SftpUpload(cfg, env), s2);
    forall i | 0 <= i < r.handled
      ensures PutSftpFile(keys[i], cfg, env).Success? && IsComplete(r.store, uq, keys[i])
      ensures var key := SftpS3Key(cfg.s3Directory, keys[i], cfg.compress, cfg.recipient);
              (pq, key) in r.store.entries && !r.store.entries[(pq, key)].isComplete
    {
      SftpDelivered(r.store, uq, pq, keys[i], cfg, env);
    }
  }

  /** A stage that ran to the end leaves no incomplete upload entry behind:
      every file it found pending is in the object store and queued for
      processing. */
  lemma SendSftpCompletesAll(s: Store, uq: string, pq: string, cfg: TransferConfig, env: SftpEnv, s2: Store)
    requires uq != pq && QueuesReady(s, uq, pq, s2)
    requires SendSftpFilesIntoS3(s, uq, pq, cfg, env).fault.None?
    ensures var r := SendSftpFilesIntoS3(s, uq, pq, cfg, env);
            forall k :: (uq, k) in s.entries ==>
              && IsComplete(r.store, uq, k)
              && (!s.entries[(uq, k)].isComplete ==>
                    var key := SftpS3Key(cfg.s3Directory, k, cfg.compress, cfg.recipient);
                    (pq, key) in r.store.entries && !r.store.entries[(pq, key)].isComplete)
  {
    var r := SendSftpFilesIntoS3(s, uq, pq, cfg, env);
    StageCompletesAll(s, uq, pq, SftpUpload(cfg, env), s2);
    forall k | (uq, k) in s.entries && !s.entries[(uq, k)].isComplete
      ensures IsComplete(r.store, uq, k)
      ensures var key := SftpS3Key(cfg.s3Directory, k, cfg.compress, cfg.recipient);
              (pq, key) in r.store.entries && !r.store.entries[(pq, key)].isComplete
    {
      SftpDelivered(r.store, uq, pq, k, cfg, env);
    }
  }

  /** Upload entries after the one the stage stopped on are left exactly as
      they were, and so is that one when fetching, transforming, uploading or
      removing its file failed. */
  lemma SendSftpLeavesRest(s: Store, uq: string, pq: string, cfg: TransferConfig, env: SftpEnv, s2: Store)
    requires uq != pq && QueuesReady(s, uq, pq, s2)
    ensures var keys := ListIncomplete(s2, uq);
            var r := SendSftpFilesIntoS3(s, uq, pq, cfg, env);
            && r.handled <= |keys|
            && (forall i :: r.handled < i < |keys| ==> r.store.entries[(uq, keys[i])] == s.entries[(uq, keys[i])])
            && (r.handled < |keys| && PutSftpFile(keys[r.handled], cfg, env).Failure? ==>
                  r.store.entries[(uq, keys[r.handled])] == s.entries[(uq, keys[r.handled])])
  {
    StageLeavesRest(s, uq, pq, SftpUpload(cfg, env), s2);
  }
}

=== FILE: store.dfy ===
/** The queue store: named queues and their entries, keyed by
    `(queue name, key)` so that a queue holds at most one entry per key.
    The store is an immutable value; every operation returns the new store.
    Time is an abstract clock that each time-stamping write advances. */
module QueueStore {
  import opened Wrappers
  import opened Strings

  /** Column widths of the queue name, key and sort key. */
  const MaxQueueName: nat := 64
  const MaxKey: nat := 256

  type Time = nat

  /** One unit of work; its queue and key are the map key it is stored under. */
  datatype Entry = Entry(sortKey: Option<string>, isComplete: bool, timeCompleted: Option<Time>, timeAdded: Time)

  datatype Store = Store(queues: set<string>, entries: map<(string, string), Entry>, clock: Time)

  /** Database failures: a value wider than its column, and an insert that
      hits the `(queue, key)` uniqueness constraint. */
  datatype DbError = TooLong(value: string) | IntegrityError(queue: string, key: string)

  /** The result of a get-or-create of an entry: the store afterwards, the
      entry as stored, and whether it was created. */
  datatype Got = Got(store: Store, entry: Entry, created: bool)

  const Empty: Store := Store({}, map[], 0)

  predicate FitsKey(s: string) { |s| <= MaxKey }

  /** Every entry belongs to a known queue, stored strings fit their columns,
      a complete entry carries a completion time, and all stamps are in the past. */
  ghost predicate Valid(s: Store) {
    && (forall q :: q in s.queues ==> |q| <= MaxQueueName)
    && (forall qk :: qk in s.entries ==> ValidEntry(s, qk.0, qk.1, s.entries[qk]))
  }

  ghost predicate ValidEntry(s: Store, q: string, key: string, e: Entry) {
    && q in s.queues
    && FitsKey(key)
    && (e.sortKey.Some? ==> FitsKey(e.sortKey.value))
    && (e.isComplete ==> e.timeCompleted.Some?)
    && e.timeAdded < s.clock
    && (e.timeCompleted.Some? ==> e.timeCompleted.value < s.clock)
  }

  /** `Queue.objects.get_or_create(name=name)`. */
  function GetOrCreateQueue(s: Store, name: string): (r: Result<Store, DbError>)
    ensures r.Success? <==> name in s.queues || |name| <= MaxQueueName
    ensures r.Success? ==> r.value.queues == s.queues + {name}
    ensures r.Success? ==> r.value.entries == s.entries && r.value.clock == s.clock
    ensures Valid(s) && r.Success? ==> Valid(r.value)
  {
    if name in s.queues then Success(s)
    else if |name| > MaxQueueName then Failure(TooLong(name))
    else Success(s.(queues := s.queues + {name}))
  }

  /** A new entry: incomplete, never completed, added now. */
  function NewEntry(sortKey: Option<string>, now: Time): (e: Entry)
    ensures !e.isComplete && e.timeCompleted == None && e.timeAdded == now && e.sortKey == sortKey
  {
    Entry(sortKey, false, None, now)
  }

  function Insert(s: Store, q: string, key: string, sortKey: Option<string>): (r: Got)
    requires (q, key) !in s.entries
    ensures r.created && r.entry == NewEntry(sortKey, s.clock)
    ensures r.store.queues == s.queues && r.store.clock > s.clock
    ensures r.store.entries.Keys == s.entries.Keys + {(q, key)}
    ensures r.store.entries[(q, key)] == r.entry
    ensures forall qk :: qk in s.entries ==> r.store.entries[qk] == s.entries[qk]
  {
    var e := NewEntry(sortKey, s.clock);
    Got(Store(s.queues, s.entries[(q, key) := e], s.clock + 1), e, true)
  }

  /** `QueueEntry.objects.get_or_create(queue=q, key=key)`: an existing entry
      is returned untouched; otherwise a new one is added with no sort key. */
  function GetOrCreateEntry(s: Store, q: string, key: string): (r: Result<Got, DbError>)
    requires q in s.queues
    ensures r.Success? <==> (q, key) in s.entries || FitsKey(key)
    ensures r.Success? ==> (q, key) in r.value.store.entries && r.value.store.entries[(q, key)] == r.value.entry
    ensures r.Success? ==> (r.value.created <==> (q, key) !in s.entries)
    ensures r.Success? && !r.value.created ==> r.value.store == s
    ensures r.Success? && r.value.created ==> r.value.entry == NewEntry(None, s.clock)
    ensures r.Success? ==> r.value.store.queues == s.queues
    ensures r.Success? ==> r.value.store.entries.Keys == s.entries.Keys + {(q, key)}
    ensures r.Success? ==> forall qk :: qk in s.entries ==> r.value.store.entries[qk] == s.entries[qk]
    ensures Valid(s) && r.Success? ==> Valid(r.value.store)
  {
    if (q, key) in s.entries then Success(Got(s, s.entries[(q, key)], false))
    else if !FitsKey(key) then Failure(TooLong(key))
    else Success(Insert(s, q, key, None))
  }

  /** `QueueEntry.objects.get_or_create(queue=q, key=key, sort_key=sortKey)`:
      the lookup matches all three columns, so an existing `(q, key)` entry
      with another sort key is not found and the insert that follows breaks
      the uniqueness constraint. */
  function GetOrCreateEntryWithSortKey(s: Store, q: string, key: string, sortKey: string): (r: Result<Got, DbError>)
    requires q in s.queues
    ensures r.Success? <==> if (q, key) in s.entries then s.entries[(q, key)].sortKey == Some(sortKey)
                            else FitsKey(key) && FitsKey(sortKey)
    ensures r.Success? ==> (q, key) in r.value.store.entries && r.value.store.entries[(q, key)] == r.value.entry
    ensures r.Success? ==> r.value.entry.sortKey == Some(sortKey)
    ensures r.Success? ==> (r.value.created <==> (q, key) !in s.entries)
    ensures r.Success? && !r.value.created ==> r.value.store == s
    ensures r.Success? && r.value.created ==> r.value.entry == NewEntry(Some(sortKey), s.clock)
    ensures r.Success? ==> r.value.store.queues == s.queues
    ensures r.Success? ==> r.value.store.entries.Keys == s.entries.Keys + {(q, key)}
    ensures r.Success? ==> forall qk :: qk in s.entries ==> r.value.store.entries[qk] == s.entries[qk]
    ensures Valid(s) && r.Success? ==> Valid(r.value.store)
  {
    if (q, key) in s.entries then
      if s.entries[(q, key)].sortKey == Some(sortKey) then Success(Got(s, s.entries[(q, key)], false))
      else Failure(IntegrityError(q, key))
    else if !FitsKey(key) then Failure(TooLong(key))
    else if !FitsKey(sortKey) then Failure(TooLong(sortKey))
    else Success(Insert(s, q, key, Some(sortKey)))
  }

  /** `entry.mark_as_complete()`: complete, stamped with the current time. */
  function MarkComplete(s: Store, q: string, key: string): (r: Store)
    requires (q, key) in s.entries
    ensures (q, key) in r.entries
    ensures r.entries[(q, key)].isComplete && r.entries[(q, key)].timeCompleted == Some(s.clock)
    ensures r.entries[(q, key)].sortKey == s.entries[(q, key)].sortKey
    ensures r.entries[(q, key)].timeAdded == s.entries[(q, key)].timeAdded
    ensures r.entries.Keys == s.entries.Keys && r.queues == s.queues && r.clock > s.clock
    ensures forall qk :: qk in s.entries && qk != (q, key) ==> r.entries[qk] == s.entries[qk]
    ensures Valid(s) ==> Valid(r)
  {
    var e := s.entries[(q, key)];
    Store(s.queues, s.entries[(q, key) := e.(isComplete := true, timeCompleted := Some(s.clock))], s.clock + 1)
  }

  /** `qe.is_complete = False; qe.save()`: incomplete again, with whatever
      completion time it had left in place. */
  function ForceIncomplete(s: Store, q: string, key: string): (r: Store)
    requires (q, key) in s.entries
    ensures (q, key) in r.entries && !r.entries[(q, key)].isComplete
    ensures r.entries[(q, key)].timeCompleted == s.entries[(q, key)].timeCompleted
    ensures r.entries[(q, key)].sortKey == s.entries[(q, key)].sortKey
    ensures r.entries[(q, key)].timeAdded == s.entries[(q, key)].timeAdded
    ensures r.entries.Keys == s.entries.Keys && r.queues == s.queues && r.clock == s.clock
    ensures forall qk :: qk in s.entries && qk != (q, key) ==> r.entries[qk] == s.entries[qk]
    ensures Valid(s) ==> Valid(r)
  {
    var e := s.entries[(q, key)];
    s.(entries := s.entries[(q, key) := e.(isComplete := false)])
  }

  /** Creating a queue twice gives the same store as creating it once. */
  lemma QueueIdempotent(s: Store, name: string)
    requires GetOrCreateQueue(s, name).Success?
    ensures GetOrCreateQueue(GetOrCreateQueue(s, name).value, name) == GetOrCreateQueue(s, name)
  {
  }

  /** Enqueueing the same key twice: the second call finds the first call's
      entry and changes nothing, completion state included. */
  lemma EnqueueIdempotent(s: Store, q: string, key: string)
    requires q in s.queues && GetOrCreateEntry(s, q, key).Success?
    ensures var first := GetOrCreateEntry(s, q, key).value;
            var second := GetOrCreateEntry(first.store, q, key);
            second == Success(Got(first.store, first.entry, false))
  {
  }

  /** Completing an entry twice stamps it again, with a later time. */
  lemma MarkCompleteOverwritesStamp(s: Store, q: string, key: string)
    requires (q, key) in s.entries
    ensures var once := MarkComplete(s, q, key);
            var twice := MarkComplete(once, q, key);
            twice.entries[(q, key)].timeCompleted.value > once.entries[(q, key)].timeCompleted.value
  {
  }
}

=== FILE: strings.dfy ===
/** String helpers with Python's semantics: `str.split` on one character,
    `str.rstrip` of one character, `int()` on decimal digits, `str.format` of a
    non-negative integer, and the code-point order a database uses to sort. */
module Strings {
  import opened Wrappers

  /** `s.split(c)`: the pieces between occurrences of `c`; never empty. */
  function Split(s: string, c: char): (parts: seq<string>)
    ensures |parts| >= 1
    ensures forall i :: 0 <= i < |parts| ==> c !in parts[i]
  {
    if |s| == 0 then [""]
    else
      var rest := Split(s[1..], c);
      if s[0] == c then [""] + rest
      else [[s[0]] + rest[0]] + rest[1..]
  }

  /** `c.join(parts)`: the inverse of `Split`. */
  function JoinWith(parts: seq<string>, c: char): string
    requires |parts| >= 1
  {
    if |parts| == 1 then parts[0]
    else parts[0] + [c] + JoinWith(parts[1..], c)
  }

  /** Splitting `a + [c] + b` at its first separator gives `a` first. */
  lemma {:induction false} SplitAtFirst(a: string, c: char, b: string)
    requires c !in a
    ensures Split(a + [c] + b, c) == [a] + Split(b, c)
  {
    if |a| == 0 {
      assert a + [c] + b == [c] + b;
      assert ([c] + b)[1..] == b;
    } else {
      var s := a + [c] + b;
      assert s[0] == a[0];
      assert s[1..] == a[1..] + [c] + b;
      SplitAtFirst(a[1..], c, b);
      assert [a[0]] + a[1..] == a;
    }
  }

  /** Splitting a piece without separators gives the piece back. */
  lemma {:induction false} SplitNoSeparator(a: string, c: char)
    requires c !in a
    ensures Split(a, c) == [a]
  {
    if |a| > 0 {
      SplitNoSeparator(a[1..], c);
      assert [a[0]] + a[1..] == a;
    }
  }

  /** Joining separator-free pieces and splitting again gives the pieces back. */
  lemma {:induction false} SplitJoin(parts: seq<string>, c: char)
    requires |parts| >= 1
    requires forall i :: 0 <= i < |parts| ==> c !in parts[i]
    ensures Split(JoinWith(parts, c), c) == parts
  {
    if |parts| == 1 {
      SplitNoSeparator(parts[0], c);
    } else {
      SplitJoin(parts[1..], c);
      SplitAtFirst(parts[0], c, JoinWith(parts[1..], c));
      assert [parts[0]] + parts[1..] == parts;
    }
  }

  /** Splitting and joining again gives the string back. */
  lemma {:induction false} JoinSplit(s: string, c: char)
    ensures JoinWith(Split(s, c), c) == s
  {
    if |s| > 0 {
      JoinSplit(s[1..], c);
      var rest := Split(s[1..], c);
      if s[0] == c {
        assert ([""] + rest)[1..] == rest;
        assert s == [c] + s[1..];
      } else {
        var parts := [[s[0]] + rest[0]] + rest[1..];
        if |rest| == 1 {
          assert s == [s[0]] + s[1..];
        } else {
          assert parts[1..] == rest[1..];
          assert JoinWith(rest, c) == rest[0] + [c] + JoinWith(rest[1..], c);
          assert s == [s[0]] + s[1..];
        }
      }
    }
  }

  /** `s.rstrip(c)`: `s` without its trailing run of `c`. */
  function RStrip(s: string, c: char): (r: string)
    ensures |r| <= |s| && r == s[..|r|]
    ensures |r| == 0 || r[|r| - 1] != c
    ensures forall i :: |r| <= i < |s| ==> s[i] == c
  {
    if |s| > 0 && s[|s| - 1] == c then RStrip(s[..|s| - 1], c) else s
  }

  /** A string that does not end with `c` is left alone by `RStrip`. */
  lemma RStripNoTrailing(s: string, c: char)
    requires |s| == 0 || s[|s| - 1] != c
    ensures RStrip(s, c) == s
  {
  }

  predicate IsDigit(ch: char) {
    '0' <= ch <= '9'
  }

  /** What `int()` accepts in this model: one or more decimal digits. */
  predicate IsDecimal(s: string) {
    |s| > 0 && forall i :: 0 <= i < |s| ==> IsDigit(s[i])
  }

  function DigitChar(d: nat): (ch: char)
    requires d < 10
    ensures IsDigit(ch) && ch as int - '0' as int == d
  {
    ('0' as int + d) as char
  }

  /** The value of a string of digits, most significant first. */
  function DecimalValue(s: string): nat
    requires forall i :: 0 <= i < |s| ==> IsDigit(s[i])
  {
    if |s| == 0 then 0
    else
      assert IsDigit(s[|s| - 1]);
      DecimalValue(s[..|s| - 1]) * 10 + (s[|s| - 1] as int - '0' as int)
  }

  /** `int(s)`, failing (Python's ValueError) on anything but digits. */
  function ParseNat(s: string): (r: Option<nat>)
    ensures r.None? <==> |s| == 0 || exists i :: 0 <= i < |s| && !IsDigit(s[i])
  {
    if IsDecimal(s) then Some(DecimalValue(s)) else None
  }

  /** `int()` ignores leading zeros: `int("0" + s) == int(s)`. */
  lemma {:induction false} ParseNatLeadingZero(s: string)
    ensures ParseNat("0" + s) == (if |s| == 0 then Some(0) else ParseNat(s))
  {
    if |s| == 0 || IsDecimal(s) {
      LeadingZeroValue(s);
      assert IsDecimal("0" + s);
    }
    if |s| > 0 && !IsDecimal(s) {
      var i :| 0 <= i < |s| && !IsDigit(s[i]);
      assert ("0" + s)[i + 1] == s[i];
    }
  }

  lemma {:induction false} LeadingZeroValue(s: string)
    requires forall i :: 0 <= i < |s| ==> IsDigit(s[i])
    ensures forall i :: 0 <= i < |"0" + s| ==> IsDigit(("0" + s)[i])
    ensures DecimalValue("0" + s) == DecimalValue(s)
  {
    var z := "0" + s;
    assert forall i :: 0 <= i < |z| ==> IsDigit(z[i]) by {
      forall i | 0 <= i < |z| ensures IsDigit(z[i]) {
        if i > 0 { assert z[i] == s[i - 1]; }
      }
    }
    if |s| == 0 {
      assert z[..|z| - 1] == "";
    } else {
      var p := s[..|s| - 1];
      LeadingZeroValue(p);
      assert z[..|z| - 1] == "0" + p;
      assert z[|z| - 1] == s[|s| - 1];
    }
  }

  /** `'{0}'.format(n)` for a non-negative integer. */
  function NatToDecimal(n: nat): (r: string)
    ensures IsDecimal(r)
  {
    if n < 10 then [DigitChar(n)]
    else NatToDecimal(n / 10) + [DigitChar(n % 10)]
  }

  /** `int(str(n)) == n`. */
  lemma {:induction false} DecimalRoundTrip(n: nat)
    ensures ParseNat(NatToDecimal(n)) == Some(n)
  {
    var r := NatToDecimal(n);
    if n < 10 {
      assert r[..|r| - 1] == "";
      assert DecimalValue(r) == DecimalValue("") * 10 + n;
    } else {
      DecimalRoundTrip(n / 10);
      var p := NatToDecimal(n / 10);
      assert r[..|r| - 1] == p;
    }
  }

  /** Code-point lexicographic order on strings. */
  predicate StrLess(a: string, b: string) {
    if |a| == 0 then |b| > 0
    else if |b| == 0 then false
    else if a[0] < b[0] then true
    else if a[0] == b[0] then StrLess(a[1..], b[1..])
    else false
  }

  lemma {:induction false} StrLessIrreflexive(a: string)
    ensures !StrLess(a, a)
  {
    if |a| > 0 {
      StrLessIrreflexive(a[1..]);
    }
  }

  lemma {:induction false} StrLessTransitive(a: string, b: string, c: string)
    requires StrLess(a, b) && StrLess(b, c)
    ensures StrLess(a, c)
  {
    if |a| > 0 && |b| > 0 && |c| > 0 && a[0] == b[0] == c[0] {
      StrLessTransitive(a[1..], b[1..], c[1..]);
    }
  }

  lemma {:induction false} StrLessConnected(a: string, b: string)
    requires a != b
    ensures StrLess(a, b) || StrLess(b, a)
  {
    if |a| > 0 && |b| > 0 && a[0] == b[0] {
      assert a == [a[0]] + a[1..] && b == [b[0]] + b[1..];
      StrLessConnected(a[1..], b[1..]);
    }
  }

  lemma {:induction false} StrLessAsymmetric(a: string, b: string)
    requires StrLess(a, b)
    ensures !StrLess(b, a)
  {
    if |a| > 0 && |b| > 0 && a[0] == b[0] {
      StrLessAsymmetric(a[1..], b[1..]);
    }
  }
}

=== FILE: transfer.dfy ===
/** The transfer loop both transfer stages share. For each scanned upload
    entry it runs the upload (an input returning the object keys it wrote, or
    a failure), then for each key it get-or-creates the process-queue entry
    with sort key = key, forces it incomplete, and marks the upload entry
    complete. The SFTP stage uploads one key per entry; the IMAP stage one per
    matching attachment, possibly none. */
module Transfer {
  import opened Wrappers
  import opened QueueStore
  import opened Pipeline
  import opened QueueOrder

  /** The inner loop over the keys one upload entry produced. */
  function EnqueueDownstream(s: Store, uq: string, pq: string, src: string, derived: seq<string>): (r: StageResult)
    requires uq in s.queues && pq in s.queues && (uq, src) in s.entries
    ensures r.handled <= |derived| && (r.fault.None? <==> r.handled == |derived|)
    ensures r.store.queues == s.queues
    ensures s.entries.Keys <= r.store.entries.Keys
    decreases |derived|
  {
    if |derived| == 0 then StageResult(s, None, 0)
    else
      var step := DownstreamStep(s, uq, pq, src, derived[0]);
      if step.Failure? then StageResult(s, Some(Db(step.error)), 0)
      else
        var rest := EnqueueDownstream(step.value, uq, pq, src, derived[1..]);
        StageResult(rest.store, rest.fault, rest.handled + 1)
  }

  /** One key of the inner loop: get-or-create its process-queue entry with
      the key as sort key, force that entry incomplete, and mark the upload
      entry complete. */
  function DownstreamStep(s: Store, uq: string, pq: string, src: string, key: string): (r: Result<Store, DbError>)
    requires uq in s.queues && pq in s.queues && (uq, src) in s.entries
    ensures r.Success? <==> GetOrCreateEntryWithSortKey(s, pq, key, key).Success?
    ensures r.Success? ==> r.value.queues == s.queues && r.value.entries.Keys == s.entries.Keys + {(pq, key)}
    ensures r.Success? ==> IsComplete(r.value, uq, src)
    ensures r.Success? && (pq, key) != (uq, src) ==> !r.value.entries[(pq, key)].isComplete
    ensures r.Success? && (pq, key) != (uq, src) && (pq, key) in s.entries ==> r.value.entries[(pq, key)].timeCompleted == s.entries[(pq, key)].timeCompleted
    ensures r.Success? ==> forall qk :: qk in s.entries && qk != (uq, src) && qk != (pq, key) ==> r.value.entries[qk] == s.entries[qk]
  {
    match GetOrCreateEntryWithSortKey(s, pq, key, key)
      case Failure(e) => Failure(e)
      case Success(got) => Success(MarkComplete(ForceIncomplete(got.store, pq, key), uq, src))
  }

  /** The outer loop over the scanned upload entries; the first failure ends
      the batch, keeping what was written before it. */
  function TransferEntries(s: Store, uq: string, pq: string, keys: seq<string>, upload: string -> Result<seq<string>, Fault>)
    : (r: StageResult)
    requires uq in s.queues && pq in s.queues
    requires forall i :: 0 <= i < |keys| ==> (uq, keys[i]) in s.entries
    ensures r.handled <= |keys| && (r.fault.None? <==> r.handled == |keys|)
    ensures r.store.queues == s.queues
    ensures s.entries.Keys <= r.store.entries.Keys
    decreases |keys|
  {
    if |keys| == 0 then StageResult(s, None, 0)
    else
      var d := UploadStep(s, uq, pq, keys[0], upload);
      if d.fault.Some? then StageResult(d.store, d.fault, 0)
      else
        var rest := TransferEntries(d.store, uq, pq, keys[1..], upload);
        StageResult(rest.store, rest.fault, rest.handled + 1)
  }

  /** One upload entry: its upload, then the inner loop over the keys it wrote. */
  function UploadStep(s: Store, uq: string, pq: string, k: string, upload: string -> Result<seq<string>, Fault>)
    : (r: StageResult)
    requires uq in s.queues && pq in s.queues && (uq, k) in s.entries
    ensures r.store.queues == s.queues
    ensures s.entries.Keys <= r.store.entries.Keys
    ensures r.fault.None? ==> upload(k).Success?
  {
    match upload(k)
      case Failure(f) => StageResult(s, Some(f), 0)
      case Success(derived) => EnqueueDownstream(s, uq, pq, k, derived)
  }

  /** One unrolling of the inner loop after a successful first key. */
  lemma DownstreamUnfold(s: Store, uq: string, pq: string, src: string, derived: seq<string>)
    requires uq in s.queues && pq in s.queues && (uq, src) in s.entries
    requires |derived| > 0 && DownstreamStep(s, uq, pq, src, derived[0]).Success?
    ensures var rest := EnqueueDownstream(DownstreamStep(s, uq, pq, src, derived[0]).value, uq, pq, src, derived[1..]);
            EnqueueDownstream(s, uq, pq, src, derived).store == rest.store
    ensures var rest := EnqueueDownstream(DownstreamStep(s, uq, pq, src, derived[0]).value, uq, pq, src, derived[1..]);
            EnqueueDownstream(s, uq, pq, src, derived).fault == rest.fault
    ensures var rest := EnqueueDownstream(DownstreamStep(s, uq, pq, src, derived[0]).value, uq, pq, src, derived[1..]);
            EnqueueDownstream(s, uq, pq, src, derived).handled == rest.handled + 1
  {
  }

  /** The inner loop never completes a process-queue entry. */
  lemma {:induction false} DownstreamKeepsIncomplete(s: Store, uq: string, pq: string, src: string, derived: seq<string>, k: string)
    requires uq in s.queues && pq in s.queues && (uq, src) in s.entries && uq != pq
    requires (pq, k) in s.entries && !s.entries[(pq, k)].isComplete
    ensures var r := EnqueueDownstream(s, uq, pq, src, derived);
            (pq, k) in r.store.entries && !r.store.entries[(pq, k)].isComplete
    decreases |derived|
  {
    if |derived| > 0 && DownstreamStep(s, uq, pq, src, derived[0]).Success? {
      DownstreamUnfold(s, uq, pq, src, derived);
      DownstreamKeepsIncomplete(DownstreamStep(s, uq, pq, src, derived[0]).value, uq, pq, src, derived[1..], k);
    }
  }

  /** The inner loop never un-completes an upload-queue entry. */
  lemma {:induction false} DownstreamKeepsComplete(s: Store, uq: string, pq: string, src: string, derived: seq<string>, k: string)
    requires uq in s.queues && pq in s.queues && (uq, src) in s.entries && uq != pq
    requires IsComplete(s, uq, k)
    ensures IsComplete(EnqueueDownstream(s, uq, pq, src, derived).store, uq, k)
    decreases |derived|
  {
    if |derived| > 0 && DownstreamStep(s, uq, pq, src, derived[0]).Success? {
      DownstreamUnfold(s, uq, pq, src, derived);
      DownstreamKeepsComplete(DownstreamStep(s, uq, pq, src, derived[0]).value, uq, pq, src, derived[1..], k);
    }
  }

  /** The inner loop touches only the source entry and process-queue entries. */
  lemma {:induction false} DownstreamFrame(s: Store, uq: string, pq: string, src: string, derived: seq<string>, qk: (string, string))
    requires uq in s.queues && pq in s.queues && (uq, src) in s.entries
    requires qk in s.entries && qk.0 != pq && qk != (uq, src)
    ensures var r := EnqueueDownstream(s, uq, pq, src, derived);
            qk in r.store.entries && r.store.entries[qk] == s.entries[qk]
    decreases |derived|
  {
    if |derived| > 0 && DownstreamStep(s, uq, pq, src, derived[0]).Success? {
      DownstreamUnfold(s, uq, pq, src, derived);
      DownstreamFrame(DownstreamStep(s, uq, pq, src, derived[0]).value, uq, pq, src, derived[1..], qk);
    }
  }

  /** The inner loop keeps every process-queue entry's completion time. */
  lemma {:induction false} DownstreamKeepsTime(s: Store, uq: string, pq: string, src: string, derived: seq<string>, k: string)
    requires uq in s.queues && pq in s.queues && (uq, src) in s.entries && uq != pq
    requires (pq, k) in s.entries
    ensures var r := EnqueueDownstream(s, uq, pq, src, derived);
            (pq, k) in r.store.entries && r.store.entries[(pq, k)].timeCompleted == s.entries[(pq, k)].timeCompleted
    decreases |derived|
  {
    if |derived| > 0 && DownstreamStep(s, uq, pq, src, derived[0]).Success? {
      DownstreamUnfold(s, uq, pq, src, derived);
      DownstreamKeepsTime(DownstreamStep(s, uq, pq, src, derived[0]).value, uq, pq, src, derived[1..], k);
    }
  }

  /** Every key the inner loop handled has an incomplete process-queue entry;
      the source entry is complete once one key was handled, and with none
      handled nothing was written. */
  lemma {:induction false} DownstreamHandled(s: Store, uq: string, pq: string, src: string, derived: seq<string>)
    requires uq in s.queues && pq in s.queues && (uq, src) in s.entries && uq != pq
    ensures var r := EnqueueDownstream(s, uq, pq, src, derived);
            && AllPending(r.store, pq, derived, r.handled)
            && (r.handled > 0 ==> IsComplete(r.store, uq, src))
            && (r.handled == 0 ==> r.store == s)
    decreases |derived|
  {
    if |derived| > 0 && DownstreamStep(s, uq, pq, src, derived[0]).Success? {
      DownstreamUnfold(s, uq, pq, src, derived);
      var s1 := DownstreamStep(s, uq, pq, src, derived[0]).value;
      var tail := derived[1..];
      DownstreamHandled(s1, uq, pq, src, tail);
      DownstreamKeepsIncomplete(s1, uq, pq, src, tail, derived[0]);
      DownstreamKeepsComplete(s1, uq, pq, src, tail, src);
      var rest := EnqueueDownstream(s1, uq, pq, src, tail);
      PendingCons(rest.store, pq, derived, rest.handled + 1);
    }
  }

  /** The first `n` keys all have incomplete entries in queue `pq`. */
  predicate AllPending(st: Store, pq: string, ks: seq<string>, n: nat)
    requires n <= |ks|
  {
    forall i :: 0 <= i < n ==> (pq, ks[i]) in st.entries && !st.entries[(pq, ks[i])].isComplete
  }

  lemma PendingCons(st: Store, pq: string, ks: seq<string>, n: nat)
    requires 0 < n <= |ks|
    requires (pq, ks[0]) in st.entries && !st.entries[(pq, ks[0])].isComplete
    requires AllPending(st, pq, ks[1..], n - 1)
    ensures AllPending(st, pq, ks, n)
  {
    assert forall i :: 0 < i < n ==> ks[i] == ks[1..][i - 1];
  }

  /** The upload entries after the first are still there after the first step. */
  lemma TailPresent(s: Store, s1: Store, uq: string, keys: seq<string>)
    requires |keys| > 0 && s.entries.Keys <= s1.entries.Keys
    requires forall i :: 0 <= i < |keys| ==> (uq, keys[i]) in s.entries
    ensures forall i :: 0 <= i < |keys| - 1 ==> (uq, keys[1..][i]) in s1.entries
  {
    assert forall i :: 0 <= i < |keys| - 1 ==> keys[1..][i] == keys[i + 1];
  }

  /** One unrolling of the outer loop after a fully handled first entry. */
  lemma TransferUnfold(s: Store, uq: string, pq: string, keys: seq<string>, upload: string -> Result<seq<string>, Fault>)
    requires uq in s.queues && pq in s.queues
    requires forall i :: 0 <= i < |keys| ==> (uq, keys[i]) in s.entries
    requires |keys| > 0 && UploadStep(s, uq, pq, keys[0], upload).fault.None?
    ensures var s1 := UploadStep(s, uq, pq, keys[0], upload).store;
            forall i :: 0 <= i < |keys| - 1 ==> (uq, keys[1..][i]) in s1.entries
    ensures var rest := TransferEntries(UploadStep(s, uq, pq, keys[0], upload).store, uq, pq, keys[1..], upload);
            TransferEntries(s, uq, pq, keys, upload).store == rest.store
    ensures var rest := TransferEntries(UploadStep(s, uq, pq, keys[0], upload).store, uq, pq, keys[1..], upload);
            TransferEntries(s, uq, pq, keys, upload).fault == rest.fault
    ensures var rest := TransferEntries(UploadStep(s, uq, pq, keys[0], upload).store, uq, pq, keys[1..], upload);
            TransferEntries(s, uq, pq, keys, upload).handled == rest.handled + 1
  {
    TailPresent(s, UploadStep(s, uq, pq, keys[0], upload).store, uq, keys);
  }

  /** The first upload entry, run on its own, keeps process-queue entries
      incomplete, keeps their completion times, keeps complete upload entries
      complete, and leaves every entry of the other queues and every other
      upload entry alone. */
  lemma UploadStepFacts(s: Store, uq: string, pq: string, k: string, upload: string -> Result<seq<string>, Fault>, qk: (string, string))
    requires uq in s.queues && pq in s.queues && (uq, k) in s.entries && uq != pq
    requires qk in s.entries
    ensures var d := UploadStep(s, uq, pq, k, upload);
            qk in d.store.entries
    ensures var d := UploadStep(s, uq, pq, k, upload);
            qk.0 == pq && !s.entries[qk].isComplete ==> !d.store.entries[qk].isComplete
    ensures var d := UploadStep(s, uq, pq, k, upload);
            qk.0 == pq ==> d.store.entries[qk].timeCompleted == s.entries[qk].timeCompleted
    ensures var d := UploadStep(s, uq, pq, k, upload);
            qk.0 == uq && s.entries[qk].isComplete ==> d.store.entries[qk].isComplete
    ensures var d := UploadStep(s, uq, pq, k, upload);
            qk.0 != pq && qk != (uq, k) ==> d.store.entries[qk] == s.entries[qk]
  {
    if upload(k).Success? {
      var derived := upload(k).value;
      if qk.0 == pq {
        DownstreamKeepsTime(s, uq, pq, k, derived, qk.1);
        if !s.entries[qk].isComplete {
          DownstreamKeepsIncomplete(s, uq, pq, k, derived, qk.1);
        }
      } else if qk.0 == uq && s.entries[qk].isComplete {
        DownstreamKeepsComplete(s, uq, pq, k, derived, qk.1);
      }
      if qk.0 != pq && qk != (uq, k) {
        DownstreamFrame(s, uq, pq, k, derived, qk);
      }
    }
  }

  /** A transfer batch never completes a process-queue entry. */
  lemma {:induction false} TransferKeepsIncomplete(s: Store, uq: string, pq: string, keys: seq<string>, upload: string -> Result<seq<string>, Fault>, k: string)
    requires uq in s.queues && pq in s.queues && uq != pq
    requires forall i :: 0 <= i < |keys| ==> (uq, keys[i]) in s.entries
    requires (pq, k) in s.entries && !s.entries[(pq, k)].isComplete
    ensures var r := TransferEntries(s, uq, pq, keys, upload);
            (pq, k) in r.store.entries && !r.store.entries[(pq, k)].isComplete
    decreases |keys|
  {
    if |keys| > 0 {
      UploadStepFacts(s, uq, pq, keys[0], upload, (pq, k));
      var d := UploadStep(s, uq, pq, keys[0], upload);
      if d.fault.None? {
        TransferUnfold(s, uq, pq, keys, upload);
        TransferKeepsIncomplete(d.store, uq, pq, keys[1..], upload, k);
      }
    }
  }

  /** A transfer batch never un-completes an upload-queue entry. */
  lemma {:induction false} TransferKeepsComplete(s: Store, uq: string, pq: string, keys: seq<string>, upload: string -> Result<seq<string>, Fault>, k: string)
    requires uq in s.queues && pq in s.queues && uq != pq
    requires forall i :: 0 <= i < |keys| ==> (uq, keys[i]) in s.entries
    requires IsComplete(s, uq, k)
    ensures IsComplete(TransferEntries(s, uq, pq, keys, upload).store, uq, k)
    decreases |keys|
  {
    if |keys| > 0 {
      UploadStepFacts(s, uq, pq, keys[0], upload, (uq, k));
      var d := UploadStep(s, uq, pq, keys[0], upload);
      if d.fault.None? {
        TransferUnfold(s, uq, pq, keys, upload);
        TransferKeepsComplete(d.store, uq, pq, keys[1..], upload, k);
      }
    }
  }

  /** A transfer batch keeps every process-queue entry's completion time. */
  lemma {:induction false} TransferKeepsTime(s: Store, uq: string, pq: string, keys: seq<string>, upload: string -> Result<seq<string>, Fault>, k: string)
    requires uq in s.queues && pq in s.queues && uq != pq
    requires forall i :: 0 <= i < |keys| ==> (uq, keys[i]) in s.entries
    requires (pq, k) in s.entries
    ensures var r := TransferEntries(s, uq, pq, keys, upload);
            (pq, k) in r.store.entries && r.store.entries[(pq, k)].timeCompleted == s.entries[(pq, k)].timeCompleted
    decreases |keys|
  {
    if |keys| > 0 {
      UploadStepFacts(s, uq, pq, keys[0], upload, (pq, k));
      var d := UploadStep(s, uq, pq, keys[0], upload);
      if d.fault.None? {
        TransferUnfold(s, uq, pq, keys, upload);
        TransferKeepsTime(d.store, uq, pq, keys[1..], upload, k);
      }
    }
  }

  /** Key `k` is none of the first `handled` keys, and when it is the key the
      batch stopped on, the upload itself failed there (when enqueueing its
      keys failed instead, the entry may have been written). */
  predicate UntouchedBy(handled: nat, keys: seq<string>, upload: string -> Result<seq<string>, Fault>, k: string)
    requires handled <= |keys|
  {
    && (forall i :: 0 <= i < handled ==> keys[i] != k)
    && (handled < |keys| && k == keys[handled] ==> upload(keys[handled]).Failure?)
  }

  /** Dropping the first, handled key keeps a key untouched. */
  lemma UntouchedShift(keys: seq<string>, upload: string -> Result<seq<string>, Fault>, k: string, handled: nat)
    requires 0 < handled <= |keys| && UntouchedBy(handled, keys, upload, k)
    ensures k != keys[0] && UntouchedBy(handled - 1, keys[1..], upload, k)
  {
    assert forall i :: 0 <= i < |keys| - 1 ==> keys[1..][i] == keys[i + 1];
  }

  /** A transfer batch leaves other queues alone, and every upload entry it
      did not reach, including the one whose upload failed. */
  lemma {:induction false} TransferFrame(s: Store, uq: string, pq: string, keys: seq<string>, upload: string -> Result<seq<string>, Fault>, qk: (string, string))
    requires uq in s.queues && pq in s.queues && uq != pq
    requires forall i :: 0 <= i < |keys| ==> (uq, keys[i]) in s.entries
    requires qk in s.entries && qk.0 != pq
    requires qk.0 == uq ==> UntouchedBy(TransferEntries(s, uq, pq, keys, upload).handled, keys, upload, qk.1)
    ensures var r := TransferEntries(s, uq, pq, keys, upload);
            qk in r.store.entries && r.store.entries[qk] == s.entries[qk]
    decreases |keys|
  {
    if |keys| > 0 {
      var d := UploadStep(s, uq, pq, keys[0], upload);
      if d.fault.None? {
        TransferUnfold(s, uq, pq, keys, upload);
        if qk.0 == uq {
          UntouchedShift(keys, upload, qk.1, TransferEntries(s, uq, pq, keys, upload).handled);
        }
        UploadStepFacts(s, uq, pq, keys[0], upload, qk);
        TransferFrame(d.store, uq, pq, keys[1..], upload, qk);
      } else if upload(keys[0]).Success? {
        assert qk.0 == uq ==> qk.1 != keys[0];
        UploadStepFacts(s, uq, pq, keys[0], upload, qk);
      }
    }
  }

  /** The inner loop keeps the store's invariant. */
  lemma {:induction false} DownstreamPreservesValid(s: Store, uq: string, pq: string, src: string, derived: seq<string>)
    requires uq in s.queues && pq in s.queues && (uq, src) in s.entries
    requires Valid(s)
    ensures Valid(EnqueueDownstream(s, uq, pq, src, derived).store)
    decreases |derived|
  {
    if |derived| > 0 && DownstreamStep(s, uq, pq, src, derived[0]).Success? {
      DownstreamUnfold(s, uq, pq, src, derived);
      var got := GetOrCreateEntryWithSortKey(s, pq, derived[0], derived[0]).value;
      assert Valid(ForceIncomplete(got.store, pq, derived[0]));
      DownstreamPreservesValid(DownstreamStep(s, uq, pq, src, derived[0]).value, uq, pq, src, derived[1..]);
    }
  }

  /** A transfer batch keeps the store's invariant, whatever its outcome. */
  lemma {:induction false} TransferPreservesValid(s: Store, uq: string, pq: string, keys: seq<string>, upload: string -> Result<seq<string>, Fault>)
    requires uq in s.queues && pq in s.queues
    requires forall i :: 0 <= i < |keys| ==> (uq, keys[i]) in s.entries
    requires Valid(s)
    ensures Valid(TransferEntries(s, uq, pq, keys, upload).store)
    decreases |keys|
  {
    if |keys| > 0 {
      if upload(keys[0]).Success? {
        DownstreamPreservesValid(s, uq, pq, keys[0], upload(keys[0]).value);
      }
      var d := UploadStep(s, uq, pq, keys[0], upload);
      if d.fault.None? {
        TransferUnfold(s, uq, pq, keys, upload);
        TransferPreservesValid(d.store, uq, pq, keys[1..], upload);
      }
    }
  }

  /** What a handled upload entry leaves behind: its upload succeeded, every
      key it wrote has an incomplete process-queue entry, and the entry itself
      is complete when it wrote at least one key. */
  predicate Delivered(st: Store, uq: string, pq: string, k: string, upload: string -> Result<seq<string>, Fault>) {
    && upload(k).Success?
    && (forall j :: 0 <= j < |upload(k).value| ==>
          (pq, upload(k).value[j]) in st.entries && !st.entries[(pq, upload(k).value[j])].isComplete)
    && (|upload(k).value| > 0 ==> IsComplete(st, uq, k))
  }

  /** Delivery of one entry survives the rest of the batch. */
  lemma DeliveredKept(s: Store, uq: string, pq: string, keys: seq<string>, upload: string -> Result<seq<string>, Fault>, k: string)
    requires uq in s.queues && pq in s.queues && uq != pq
    requires forall i :: 0 <= i < |keys| ==> (uq, keys[i]) in s.entries
    requires Delivered(s, uq, pq, k, upload)
    ensures Delivered(TransferEntries(s, uq, pq, keys, upload).store, uq, pq, k, upload)
  {
    var derived := upload(k).value;
    forall j | 0 <= j < |derived| {
      TransferKeepsIncomplete(s, uq, pq, keys, upload, derived[j]);
    }
    if |derived| > 0 {
      TransferKeepsComplete(s, uq, pq, keys, upload, k);
    }
  }

  /** Every entry the batch handled was delivered. */
  lemma {:induction false} TransferHandled(s: Store, uq: string, pq: string, keys: seq<string>, upload: string -> Result<seq<string>, Fault>)
    requires uq in s.queues && pq in s.queues && uq != pq
    requires forall i :: 0 <= i < |keys| ==> (uq, keys[i]) in s.entries
    ensures var r := TransferEntries(s, uq, pq, keys, upload);
            forall i :: 0 <= i < r.handled ==> Delivered(r.store, uq, pq, keys[i], upload)
    decreases |keys|
  {
    if |keys| > 0 {
      var d := UploadStep(s, uq, pq, keys[0], upload);
      if d.fault.None? {
        TransferUnfold(s, uq, pq, keys, upload);
        DownstreamHandled(s, uq, pq, keys[0], upload(keys[0]).value);
        assert Delivered(d.store, uq, pq, keys[0], upload);
        DeliveredKept(d.store, uq, pq, keys[1..], upload, keys[0]);
        TransferHandled(d.store, uq, pq, keys[1..], upload);
        DeliveredCons(TransferEntries(s, uq, pq, keys, upload).store, uq, pq, keys, upload, TransferEntries(s, uq, pq, keys, upload).handled);
      }
    }
  }

  lemma DeliveredCons(st: Store, uq: string, pq: string, keys: seq<string>, upload: string -> Result<seq<string>, Fault>, n: nat)
    requires 0 < n <= |keys| && Delivered(st, uq, pq, keys[0], upload)
    requires forall i :: 0 <= i < n - 1 ==> Delivered(st, uq, pq, keys[1..][i], upload)
    ensures forall i :: 0 <= i < n ==> Delivered(st, uq, pq, keys[i], upload)
  {
    assert forall i :: 0 < i < n ==> keys[i] == keys[1..][i - 1];
  }

  /** No key occurs twice. */
  predicate Distinct(keys: seq<string>) {
    forall i, j :: 0 <= i < j < |keys| ==> keys[i] != keys[j]
  }

  /** An upload entry whose upload failed or wrote no key is left exactly as
      it was, however far the batch got. */
  lemma {:induction false} TransferKeepsSilent(s: Store, uq: string, pq: string, keys: seq<string>, upload: string -> Result<seq<string>, Fault>, k: string)
    requires uq in s.queues && pq in s.queues && uq != pq
    requires forall i :: 0 <= i < |keys| ==> (uq, keys[i]) in s.entries
    requires Distinct(keys) && (uq, k) in s.entries
    requires upload(k).Failure? || |upload(k).value| == 0
    ensures var r := TransferEntries(s, uq, pq, keys, upload);
            (uq, k) in r.store.entries && r.store.entries[(uq, k)] == s.entries[(uq, k)]
    decreases |keys|
  {
    if |keys| > 0 {
      var d := UploadStep(s, uq, pq, keys[0], upload);
      var tail := keys[1..];
      assert forall i :: 0 <= i < |tail| ==> tail[i] == keys[i + 1];
      if keys[0] == k {
        if upload(k).Success? {
          DownstreamHandled(s, uq, pq, k, upload(k).value);
          TransferUnfold(s, uq, pq, keys, upload);
          TransferFrame(s, uq, pq, tail, upload, (uq, k));
        }
      } else {
        UploadStepFacts(s, uq, pq, keys[0], upload, (uq, k));
        if d.fault.None? {
          TransferUnfold(s, uq, pq, keys, upload);
          TransferKeepsSilent(d.store, uq, pq, tail, upload, k);
        }
      }
    }
  }

  /** A whole transfer stage: get-or-create the upload and process queues,
      scan the upload queue's incomplete entries in order, and run the
      transfer loop over them. */
  function TransferStage(s: Store, uq: string, pq: string, upload: string -> Result<seq<string>, Fault>): (r: StageResult)
    ensures s.entries.Keys <= r.store.entries.Keys
    ensures r.fault.None? ==> uq in r.store.queues && pq in r.store.queues
  {
    match GetOrCreateQueue(s, uq)
    case Failure(e) => StageResult(s, Some(Db(e)), 0)
    case Success(s1) =>
      match GetOrCreateQueue(s1, pq)
      case Failure(e) => StageResult(s1, Some(Db(e)), 0)
      case Success(s2) => TransferEntries(s2, uq, pq, ListIncomplete(s2, uq), upload)
  }

  /** The store a stage scans once both its queues exist. */
  predicate QueuesReady(s: Store, uq: string, pq: string, s2: Store) {
    && GetOrCreateQueue(s, uq).Success?
    && GetOrCreateQueue(GetOrCreateQueue(s, uq).value, pq) == Success(s2)
  }

  lemma StageIsTransfer(s: Store, uq: string, pq: string, upload: string -> Result<seq<string>, Fault>, s2: Store)
    requires QueuesReady(s, uq, pq, s2)
    ensures s2.entries == s.entries && uq in s2.queues && pq in s2.queues
    ensures forall i :: 0 <= i < |ListIncomplete(s2, uq)| ==> (uq, ListIncomplete(s2, uq)[i]) in s2.entries
    ensures TransferStage(s, uq, pq, upload) == TransferEntries(s2, uq, pq, ListIncomplete(s2, uq), upload)
  {
  }

  /** Every entry a stage handled was delivered. */
  lemma StageDelivers(s: Store, uq: string, pq: string, upload: string -> Result<seq<string>, Fault>, s2: Store)
    requires uq != pq && QueuesReady(s, uq, pq, s2)
    ensures var keys := ListIncomplete(s2, uq);
            var r := TransferStage(s, uq, pq, upload);
            forall i :: 0 <= i < r.handled ==> i < |keys| && Delivered(r.store, uq, pq, keys[i], upload)
  {
    StageIsTransfer(s, uq, pq, upload, s2);
    TransferHandled(s2, uq, pq, ListIncomplete(s2, uq), upload);
  }

  /** A stage that ran to the end delivered every upload entry that was
      incomplete, kept every complete one complete, and kept every incomplete
      process-queue entry incomplete. */
  lemma StageCompletesAll(s: Store, uq: string, pq: string, upload: string -> Result<seq<string>, Fault>, s2: Store)
    requires uq != pq && QueuesReady(s, uq, pq, s2)
    requires TransferStage(s, uq, pq, upload).fault.None?
    ensures var r := TransferStage(s, uq, pq, upload);
            && (forall k :: (uq, k) in s.entries && !s.entries[(uq, k)].isComplete ==> Delivered(r.store, uq, pq, k, upload))
            && (forall k :: IsComplete(s, uq, k) ==> IsComplete(r.store, uq, k))
            && (forall k :: (pq, k) in s.entries && !s.entries[(pq, k)].isComplete ==>
                  (pq, k) in r.store.entries && !r.store.entries[(pq, k)].isComplete)
  {
    StageIsTransfer(s, uq, pq, upload, s2);
    var keys := ListIncomplete(s2, uq);
    var r := TransferEntries(s2, uq, pq, keys, upload);
    TransferHandled(s2, uq, pq, keys, upload);
    forall k | (uq, k) in s.entries && !s.entries[(uq, k)].isComplete ensures Delivered(r.store, uq, pq, k, upload) {
      var i :| 0 <= i < |keys| && keys[i] == k;
    }
    forall k | IsComplete(s, uq, k) ensures IsComplete(r.store, uq, k) {
      TransferKeepsComplete(s2, uq, pq, keys, upload, k);
    }
    forall k | (pq, k) in s.entries && !s.entries[(pq, k)].isComplete
      ensures (pq, k) in r.store.entries && !r.store.entries[(pq, k)].isComplete
    {
      TransferKeepsIncomplete(s2, uq, pq, keys, upload, k);
    }
  }

  /** A stage leaves exactly as they were: the upload entries after the one
      it stopped on, that one too when its upload failed, the upload entries
      whose upload wrote no key, and the entries of every other queue. */
  lemma StageLeavesRest(s: Store, uq: string, pq: string, upload: string -> Result<seq<string>, Fault>, s2: Store)
    requires uq != pq && QueuesReady(s, uq, pq, s2)
    ensures var keys := ListIncomplete(s2, uq);
            var r := TransferStage(s, uq, pq, upload);
            && r.handled <= |keys|
            && (forall i :: r.handled < i < |keys| ==> r.store.entries[(uq, keys[i])] == s.entries[(uq, keys[i])])
            && (r.handled < |keys| && upload(keys[r.handled]).Failure? ==>
                  r.store.entries[(uq, keys[r.handled])] == s.entries[(uq, keys[r.handled])])
            && (forall k :: (uq, k) in s.entries && upload(k).Success? && |upload(k).value| == 0 ==>
                  r.store.entries[(uq, k)] == s.entries[(uq, k)])
            && (forall qk :: qk in s.entries && qk.0 != uq && qk.0 != pq ==> r.store.entries[qk] == s.entries[qk])
  {
    StageIsTransfer(s, uq, pq, upload, s2);
    var keys := ListIncomplete(s2, uq);
    var r := TransferEntries(s2, uq, pq, keys, upload);
    forall i | r.handled < i < |keys| ensures r.store.entries[(uq, keys[i])] == s.entries[(uq, keys[i])] {
      TransferFrame(s2, uq, pq, keys, upload, (uq, keys[i]));
    }
    if r.handled < |keys| && upload(keys[r.handled]).Failure? {
      TransferFrame(s2, uq, pq, keys, upload, (uq, keys[r.handled]));
    }
    forall k | (uq, k) in s.entries && upload(k).Success? && |upload(k).value| == 0
      ensures r.store.entries[(uq, k)] == s.entries[(uq, k)]
    {
      TransferKeepsSilent(s2, uq, pq, keys, upload, k);
    }
    forall qk | qk in s.entries && qk.0 != uq && qk.0 != pq ensures r.store.entries[qk] == s.entries[qk] {
      TransferFrame(s2, uq, pq, keys, upload, qk);
    }
  }

  /** A stage keeps the store's invariant, whatever its outcome. */
  lemma StagePreservesValid(s: Store, uq: string, pq: string, upload: string -> Result<seq<string>, Fault>)
    requires Valid(s)
    ensures Valid(TransferStage(s, uq, pq, upload).store)
  {
    if GetOrCreateQueue(s, uq).Success? {
      var s1 := GetOrCreateQueue(s, uq).value;
      if GetOrCreateQueue(s1, pq).Success? {
        var s2 := GetOrCreateQueue(s1, pq).value;
        TransferPreservesValid(s2, uq, pq, ListIncomplete(s2, uq), upload);
      }
    }
  }
}

=== FILE: transforms.dfy ===
/** The file-name contract of the compress and encrypt helpers, and their
    effect on the set of files that exist locally. The bytes they write are not
    modelled; whether the external `gpg` run produced its output file is an
    input, because the helpers ignore its exit status. */
module FileTransforms {
  import opened Wrappers

  const GzipSuffix: string := ".gz"
  const GpgSuffix: string := ".gpg"

  /** A helper's outcome: the name it returns and the files existing after it. */
  datatype Transformed = Transformed(name: string, files: set<string>)

  datatype FileError = NoSuchFile(path: string)

  /** Python's `s[:-4]`: drops four characters, leaving "" for shorter names. */
  function DropLast4(s: string): (r: string)
    ensures |s| >= 4 ==> |r| == |s| - 4 && r + s[|s| - 4..] == s
    ensures |s| < 4 ==> r == ""
  {
    if |s| >= 4 then s[..|s| - 4] else ""
  }

  /** `gzip_file(f)`: reads `f` (failing when it does not exist), writes
      `f + ".gz"` and returns that name; the original is kept. Python opens
      the output before the input, so a failed call leaves an empty `f.gz`
      behind; the model leaves the file set unchanged, which no stage reads. */
  function GzipFile(files: set<string>, f: string): (r: Result<Transformed, FileError>)
    ensures r.Success? <==> f in files
    ensures r.Success? ==> |r.value.name| == |f| + 3 && r.value.name[..|f|] == f && r.value.name[|f|..] == GzipSuffix
    ensures r.Success? ==> r.value.files == files + {r.value.name}
  {
    if f in files then Success(Transformed(f + GzipSuffix, files + {f + GzipSuffix}))
    else Failure(NoSuchFile(f))
  }

  /** `gpg_encrypt(f, recipient)`: runs gpg, whose default output is
      `f + ".gpg"`, and returns that name whether or not gpg produced it; the
      original is kept. The recipient only reaches the external command. */
  function GpgEncrypt(files: set<string>, f: string, recipient: string, produced: bool): (r: Transformed)
    ensures |r.name| == |f| + 4 && r.name[..|f|] == f && r.name[|f|..] == GpgSuffix
    ensures r.files == if produced then files + {r.name} else files
  {
    var out := f + GpgSuffix;
    Transformed(out, if produced then files + {out} else files)
  }

  /** `gpg_decrypt(f, deleteOriginal)`: names its output `f` without its last
      four characters (not checking they are ".gpg"), runs gpg, then removes
      `f` when asked, which fails if `f` does not exist. */
  function GpgDecrypt(files: set<string>, f: string, deleteOriginal: bool, produced: bool)
    : (r: Result<Transformed, FileError>)
    ensures r.Failure? <==> deleteOriginal && f !in files
    ensures r.Success? ==> r.value.name == DropLast4(f)
    ensures r.Success? && deleteOriginal ==> f !in r.value.files
    ensures r.Success? && !deleteOriginal ==> f in files ==> f in r.value.files
    ensures r.Success? ==> forall g :: g in r.value.files <==> (g in files || (produced && g == r.value.name)) && !(deleteOriginal && g == f)
  {
    var out := DropLast4(f);
    var written := if produced then files + {out} else files;
    if !deleteOriginal then Success(Transformed(out, written))
    else if f in files then Success(Transformed(out, written - {f}))
    else Failure(NoSuchFile(f))
  }

  /** Decrypting the name encryption returned gives the name encrypted. */
  lemma DecryptNameInvertsEncrypt(files: set<string>, x: string, recipient: string, produced: bool, delete: bool)
    requires delete ==> produced
    ensures var enc := GpgEncrypt(files, x, recipient, produced);
            var dec := GpgDecrypt(enc.files, enc.name, delete, true);
            dec.Success? && dec.value.name == x
  {
    var enc := GpgEncrypt(files, x, recipient, produced);
    assert enc.name == x + GpgSuffix;
    assert enc.name[..|enc.name| - 4] == x;
  }

  /** A compressed-then-encrypted name decrypts to the compressed name. */
  lemma DecryptNameOfCompressed(x: string)
    ensures DropLast4(x + GzipSuffix + GpgSuffix) == x + GzipSuffix
  {
    var n := x + GzipSuffix + GpgSuffix;
    assert n[..|n| - 4] == x + GzipSuffix;
  }

  /** The decrypted name of a name shorter than four characters is empty. */
  lemma DecryptNameOfShortName(files: set<string>, f: string, produced: bool)
    requires |f| < 4
    ensures GpgDecrypt(files, f, false, produced) == Success(Transformed("", if produced then files + {""} else files))
  {
  }
}

=== FILE: workflow.dfy ===
/** The two processor classes' `retrieve_and_process_files`: discovery, then
    transfer, then processing, each stage run only when the one before it
    returned normally. The encrypt flag picks the gpg recipient of the
    transfer and is passed as the decrypt flag of the processing stage, which
    does not read it. */
module Workflow {
  import opened Wrappers
  import opened Paths
  import opened QueueStore
  import opened FileTransforms
  import opened S3Naming
  import opened Pipeline
  import opened Transfer
  import opened SftpStages
  import opened ImapStages
  import opened ProcessStage

  /** The class attributes of an SFTP processor. */
  datatype SftpProcessor = SftpProcessor(
    uploadQueue: string, processQueue: string, s3Directory: string, folder: string,
    removeFromSftp: bool, compress: bool, encrypt: bool, encryptRecipient: string)

  /** The class attributes of an IMAP processor. */
  datatype ImapProcessor = ImapProcessor(
    uploadQueue: string, processQueue: string, mailbox: string, s3Directory: string,
    archiveMailbox: Option<string>, compress: bool, encrypt: bool, encryptRecipient: string)

  /** The store after the run, the failure that stopped it if any, and how
      many of the three stages returned normally. */
  datatype RunResult = RunResult(store: Store, fault: Option<Fault>, stagesDone: nat)

  /** `put_files_on_s3`'s arguments: a recipient exactly when encrypting. */
  function SftpTransferConfig(p: SftpProcessor): (c: TransferConfig)
    ensures c.recipient.Some? <==> p.encrypt
    ensures c.recipient.Some? ==> c.recipient.value == p.encryptRecipient
  {
    TransferConfig(p.s3Directory, p.removeFromSftp, p.compress, if p.encrypt then Some(p.encryptRecipient) else None)
  }

  /** `put_attachments_on_s3`'s arguments: a recipient exactly when encrypting. */
  function ImapTransferConfig(p: ImapProcessor): (c: ImapConfig)
    ensures c.recipient.Some? <==> p.encrypt
    ensures c.recipient.Some? ==> c.recipient.value == p.encryptRecipient
  {
    ImapConfig(p.s3Directory, p.archiveMailbox, p.compress, if p.encrypt then Some(p.encryptRecipient) else None)
  }

  /** `SFTP_S3_CSV_Processor.retrieve_and_process_files`. */
  function RetrieveAndProcessSftp(s: Store, p: SftpProcessor, env: SftpEnv, penv: ProcessEnv): (r: RunResult)
    ensures r.stagesDone <= 3 && (r.fault.None? <==> r.stagesDone == 3)
  {
    var d := EnqueueSftpFiles(s, p.uploadQueue, p.folder, env);
    if d.fault.Some? then RunResult(d.store, d.fault, 0)
    else
      var t := SendSftpFilesIntoS3(d.store, p.uploadQueue, p.processQueue, SftpTransferConfig(p), env);
      if t.fault.Some? then RunResult(t.store, t.fault, 1)
      else
        var c := ProcessS3Files(t.store, p.processQueue, penv, p.encrypt);
        RunResult(c.store, c.fault, if c.fault.Some? then 2 else 3)
  }

  /** `IMAP_S3_CSV_Processor.retrieve_and_process_files`. */
  function RetrieveAndProcessImap(s: Store, p: ImapProcessor, env: ImapEnv, penv: ProcessEnv): (r: RunResult)
    ensures r.stagesDone <= 3 && (r.fault.None? <==> r.stagesDone == 3)
  {
    var d := EnqueueImapEmails(s, p.uploadQueue, p.mailbox, env);
    if d.fault.Some? then RunResult(d.store, d.fault, 0)
    else
      var t := SendImapAttachmentsIntoS3(d.store, p.uploadQueue, p.processQueue, ImapTransferConfig(p), env);
      if t.fault.Some? then RunResult(t.store, t.fault, 1)
      else
        var c := ProcessS3Files(t.store, p.processQueue, penv, p.encrypt);
        RunResult(c.store, c.fault, if c.fault.Some? then 2 else 3)
  }

  /** The transfer of a successful run had both queues ready. */
  lemma SftpTransferReady(s: Store, p: SftpProcessor, env: SftpEnv)
    requires EnqueueSftpFiles(s, p.uploadQueue, p.folder, env).fault.None?
    requires SendSftpFilesIntoS3(EnqueueSftpFiles(s, p.uploadQueue, p.folder, env).store, p.uploadQueue, p.processQueue, SftpTransferConfig(p), env).fault.None?
    ensures var d := EnqueueSftpFiles(s, p.uploadQueue, p.folder, env).store;
            GetOrCreateQueue(d, p.uploadQueue).Success?
            && GetOrCreateQueue(GetOrCreateQueue(d, p.uploadQueue).value, p.processQueue).Success?
  {
  }

  /** A run of an SFTP processor that returns normally leaves every upload
      entry complete, in particular one for every remote file the pattern
      matched; every file that still had to be uploaded went through the
      processing function under its derived key, whose entry is complete. */
  lemma SftpRunCompletesAll(s: Store, p: SftpProcessor, env: SftpEnv, penv: ProcessEnv)
    requires p.uploadQueue != p.processQueue
    requires RetrieveAndProcessSftp(s, p, env, penv).fault.None?
    ensures var d := EnqueueSftpFiles(s, p.uploadQueue, p.folder, env).store;
            var r := RetrieveAndProcessSftp(s, p, env, penv);
            && (forall f :: f in MatchingPaths(p.folder, env.listdir(p.folder).value, env.matches) ==> IsComplete(r.store, p.uploadQueue, f))
            && (forall f :: (p.uploadQueue, f) in d.entries ==> IsComplete(r.store, p.uploadQueue, f))
            && (forall f :: (p.uploadQueue, f) in d.entries && !d.entries[(p.uploadQueue, f)].isComplete ==>
                  var key := SftpS3Key(p.s3Directory, f, p.compress, SftpTransferConfig(p).recipient);
                  IsComplete(r.store, p.processQueue, key) && Processes(key, penv, true) && penv.gpgProduced(key))
  {
    var uq, pq, cfg := p.uploadQueue, p.processQueue, SftpTransferConfig(p);
    var d := EnqueueSftpFiles(s, uq, p.folder, env).store;
    EnqueueSftpFinds(s, uq, p.folder, env);
    SftpTransferReady(s, p, env);
    var s2 := GetOrCreateQueue(GetOrCreateQueue(d, uq).value, pq).value;
    var t := SendSftpFilesIntoS3(d, uq, pq, cfg, env);
    SendSftpCompletesAll(d, uq, pq, cfg, env, s2);
    ProcessStageFrame(t.store, pq, penv, true);
  }

  /** A run of an IMAP processor that returns normally: every message that
      still had to be uploaded had all its matching attachments uploaded, each
      went through the processing function under its key, whose entry is
      complete, and the message's entry is complete when it had at least one
      attachment. */
  lemma ImapRunDeliversAll(s: Store, p: ImapProcessor, env: ImapEnv, penv: ProcessEnv)
    requires p.uploadQueue != p.processQueue
    requires RetrieveAndProcessImap(s, p, env, penv).fault.None?
    ensures var d := EnqueueImapEmails(s, p.uploadQueue, p.mailbox, env).store;
            var r := RetrieveAndProcessImap(s, p, env, penv);
            forall loc :: (p.uploadQueue, loc) in d.entries && !d.entries[(p.uploadQueue, loc)].isComplete ==>
              && PutImapAttachments(loc, ImapTransferConfig(p), env).Success?
              && var keys := PutImapAttachments(loc, ImapTransferConfig(p), env).value;
                 && (forall j :: 0 <= j < |keys| ==> IsComplete(r.store, p.processQueue, keys[j]) && Processes(keys[j], penv, true))
                 && (|keys| > 0 ==> IsComplete(r.store, p.uploadQueue, loc))
  {
    var d := EnqueueImapEmails(s, p.uploadQueue, p.mailbox, env).store;
    ImapRunSteps(s, p, env, penv);
    ImapTransferThenProcess(d, p.uploadQueue, p.processQueue, ImapTransferConfig(p), env, penv, true);
  }

  /** A run that returns normally ran each stage to the end, one after the
      other. */
  lemma ImapRunSteps(s: Store, p: ImapProcessor, env: ImapEnv, penv: ProcessEnv)
    requires RetrieveAndProcessImap(s, p, env, penv).fault.None?
    ensures var d := EnqueueImapEmails(s, p.uploadQueue, p.mailbox, env);
            var t := SendImapAttachmentsIntoS3(d.store, p.uploadQueue, p.processQueue, ImapTransferConfig(p), env);
            var c := ProcessS3Files(t.store, p.processQueue, penv, p.encrypt);
            && d.fault.None? && t.fault.None? && c.fault.None?
            && RetrieveAndProcessImap(s, p, env, penv).store == c.store
  {
  }

  lemma ImapTransferThenProcess(d: Store, uq: string, pq: string, cfg: ImapConfig, env: ImapEnv, penv: ProcessEnv, decrypt: bool)
    requires uq != pq
    requires SendImapAttachmentsIntoS3(d, uq, pq, cfg, env).fault.None?
    requires ProcessQueue(SendImapAttachmentsIntoS3(d, uq, pq, cfg, env).store, pq, penv, decrypt).fault.None?
    ensures var c := ProcessQueue(SendImapAttachmentsIntoS3(d, uq, pq, cfg, env).store, pq, penv, decrypt).store;
            forall loc :: (uq, loc) in d.entries && !d.entries[(uq, loc)].isComplete ==>
              && PutImapAttachments(loc, cfg, env).Success?
              && var keys := PutImapAttachments(loc, cfg, env).value;
                 && (forall j :: 0 <= j < |keys| ==> IsComplete(c, pq, keys[j]) && Processes(keys[j], penv, decrypt))
                 && (|keys| > 0 ==> IsComplete(c, uq, loc))
  {
    var s2 := GetOrCreateQueue(GetOrCreateQueue(d, uq).value, pq).value;
    var t := SendImapAttachmentsIntoS3(d, uq, pq, cfg, env).store;
    StageCompletesAll(d, uq, pq, ImapUpload(cfg, env), s2);
    forall loc | (uq, loc) in d.entries && !d.entries[(uq, loc)].isComplete
      ensures PutImapAttachments(loc, cfg, env).Success?
      ensures var keys := PutImapAttachments(loc, cfg, env).value;
              var c := ProcessQueue(t, pq, penv, decrypt).store;
              && (forall j :: 0 <= j < |keys| ==> IsComplete(c, pq, keys[j]) && Processes(keys[j], penv, decrypt))
              && (|keys| > 0 ==> IsComplete(c, uq, loc))
    {
      ImapEntryThrough(t, uq, pq, loc, cfg, env, penv, decrypt);
    }
  }

  /** One delivered message after a processing stage that ran to the end. */
  lemma ImapEntryThrough(t: Store, uq: string, pq: string, loc: string, cfg: ImapConfig, env: ImapEnv, penv: ProcessEnv, decrypt: bool)
    requires uq != pq
    requires Delivered(t, uq, pq, loc, ImapUpload(cfg, env))
    requires ProcessQueue(t, pq, penv, decrypt).fault.None?
    ensures PutImapAttachments(loc, cfg, env).Success?
    ensures var keys := PutImapAttachments(loc, cfg, env).value;
            var c := ProcessQueue(t, pq, penv, decrypt).store;
            && (forall j :: 0 <= j < |keys| ==> IsComplete(c, pq, keys[j]) && Processes(keys[j], penv, decrypt))
            && (|keys| > 0 ==> IsComplete(c, uq, loc))
  {
    ImapDelivered(t, uq, pq, loc, cfg, env);
    ProcessStageCompletesAll(t, pq, penv, decrypt);
    ProcessStageFrame(t, pq, penv, decrypt);
  }

  /** The file the processing function receives for a remote SFTP file: the
      temporary name ending in the remote basename, with `.gz` when
      compressing, when the run encrypts; that name less its last four
      characters when it does not, since the stage decrypts regardless. */
  lemma SftpProcessedName(p: SftpProcessor, fname: string, penv: ProcessEnv)
    ensures var key := SftpS3Key(p.s3Directory, fname, p.compress, SftpTransferConfig(p).recipient);
            var plain := penv.tempPrefix(key) + AddSuffixes(Basename(fname), p.compress, false);
            ProcessedPath(key, penv, true) == if p.encrypt then plain else DropLast4(plain)
  {
    var recipient := SftpTransferConfig(p).recipient;
    if p.encrypt {
      ProcessedNameOfSftpKey(p.s3Directory, fname, p.compress, p.encryptRecipient, penv);
    } else {
      var b := Basename(fname);
      var key := SftpS3Key(p.s3Directory, fname, p.compress, recipient);
      BasenameOfSuffixed(PathJoin(p.s3Directory, b), p.compress, false);
      BasenameOfJoin(p.s3Directory, b);
      DownloadPathOf(key, penv, AddSuffixes(b, p.compress, false));
    }
  }
}

=== FILE: wrappers.dfy ===
/** Failure-compatible wrappers used throughout the model: an optional value,
    and a result that either carries a value or an error. */
module Wrappers {

  datatype Option<+T> = None | Some(value: T) {
    predicate IsFailure() { None? }

    function PropagateFailure<U>(): Option<U>
      requires None?
    {
      None
    }

    function Extract(): T
      requires Some?
    {
      value
    }
  }

  datatype Result<+R, +E> = Success(value: R) | Failure(error: E) {
    predicate IsFailure() { Failure? }

    function PropagateFailure<U>(): Result<U, E>
      requires Failure?
    {
      Failure(error)
    }

    function Extract(): R
      requires Success?
    {
      value
    }
  }
}
